=== FILE: README.md ===
# UDP transceiver: a Dafny model of its decision layer

Ice's `UdpTransceiver` is the datagram transport endpoint of the Ice middleware: one UDP
socket (unicast, multicast sender or multicast receiver) behind the same read/write
interface the stream transports offer. Most of the class is socket plumbing. Its
decisions can be modelled and verified once every OS call is replaced by an abstract
reply. This project models five of them:

- **Datagram size ceilings** (`UdpLimits`). The payload ceiling is
  `min(65507, bufSize - 28)`. `write`, `read` and `checkSendSize` all apply it.
- **The write and read retry loops** (`DatagramWrite`, `DatagramRead`). Each `goto` label
  (`repeat`, `repeatSelect`) becomes one of two mutually recursive functions. They run
  over finite sequences of OS replies. Each call returns the outcome and the ordered list
  of calls it issued. When the replies run out, the outcome is `Unfinished`, meaning the
  call has not yet returned.
- **Transceiver state and lifecycle** (`UdpState`, `Lifecycle`). This covers the open or
  invalid handle, `close`, `fd`, the destructor's precondition, the shutdown flag, and
  the pending-connect flag, which only ever goes from true to false.
- **Buffer-size negotiation** (`BufferSizes`). For each direction, `setBufSize` is a pure
  function of three inputs: the OS default, the configured override, and the size the OS
  reports back.
- **Construction plans** (`Construction`). Each constructor issues an ordered list of
  socket-configuration calls. The list depends on the IPv4/IPv6 multicast test
  (`UdpAddress`: 224.0.0.0/4 per section 2 of RFC 5771, ff00::/8 per section 2.7 of
  RFC 4291). A parameter can make one call in the list fail.

All OS calls are abstract: `socket`, `send`, `recv`, `recvfrom`, `poll`/`select`,
`connect`, `bind`, buffer get/set, multicast options and address resolution. The model
records each call as an `Action` and takes its reply from a sequence the caller supplies.
The descriptor the OS hands out is a parameter, and so is the address the resolver
returns. A concurrent `shutdownReadWrite` appears in two ways. A read sees it through a
bit in each receive attempt, which says whether the flag was set since the previous
check. Outside a read, it is a `ShutdownOp` step.

Some behaviour of the source is easy to misread, and the model follows the code:

- A read's wait for readability is always unbounded, whatever timeout the caller passes:
  `select` is given no timeval (line 305) and `poll` a limit of -1 (line 310). The timeout
  only decides whether a read that would block waits at all (line 295). So a read raises
  Timeout only if the OS reports an expired wait on an unbounded wait, and
  `DatagramRead.ReadNeverTimesOut` states this.
- A negotiated buffer size can be below 28 bytes. The OS default is stored unchecked
  (lines 592-593 and 600-601), and so is the size read back after a set call (lines 625
  and 630). Only an explicit override below 28 is rejected (line 608).
  `BufferSizes.StoredAtLeastOverhead` states the bound that does hold when the OS default
  is at least 28.
- The "invalid size" warning also fires when no override is configured and the OS
  default itself is below 28, because the property lookup returns the default.
- On a failed construction, the source only marks the handle invalid. Whether the socket
  is released is up to the Network.cpp helpers, which are not part of this model.

## Model

| member | source | states |
|---|---|---|
| UdpLimits.Ceiling | cpp/src/Ice/UdpTransceiver.cpp:117 | the ceiling is at most 65507 and at most the buffer less 28, and equals one of the two |
| UdpLimits.FitsCeiling | cpp/src/Ice/UdpTransceiver.cpp:646-651 | a payload fits exactly when it is at most 65507 bytes and leaves 28 bytes of the buffer for headers |
| UdpLimits.CeilingMonotonic | cpp/src/Ice/UdpTransceiver.cpp:225 | a larger OS buffer never lowers the ceiling |
| UdpLimits.AsInt32 | cpp/src/Ice/UdpTransceiver.cpp:118 | `static_cast<int>` of a size: a 32-bit value congruent to the size mod 2^32, and the size itself below 2^31 |
| UdpAddress.MulticastMatchesStandard | cpp/src/Ice/UdpTransceiver.cpp:434-445 | the `IN_MULTICAST` mask on the host-order address and the `IN6_IS_ADDR_MULTICAST` octet test hold exactly for 224.0.0.0-239.255.255.255 and ff00::/8 |
| UdpSyscalls.Timeval | cpp/src/Ice/UdpTransceiver.cpp:157-162 | the timeval given to select represents exactly the millisecond timeout, with fewer than 10^6 microseconds |
| UdpState.Fd | cpp/src/Ice/UdpTransceiver.cpp:24-29 | only an open transceiver yields a descriptor, and it yields the one it holds |
| UdpState.Close | cpp/src/Ice/UdpTransceiver.cpp:31-43 | close needs an open handle, leaves it invalid (phase Closed, later than any other phase), and changes nothing else |
| UdpState.ShutdownReadWrite | cpp/src/Ice/UdpTransceiver.cpp:50-64 | needs an open handle; sets the shutdown flag and changes nothing else; the phase never moves back |
| UdpState.CloseEnablesDestroy | cpp/src/Ice/UdpTransceiver.cpp:567-570 | an open transceiver may not be destroyed, and a closed one may; a second shutdown request changes nothing |
| BufferSizes.Negotiate | cpp/src/Ice/UdpTransceiver.cpp:604-642 | an override below 28 is replaced by the default with a warning; the OS is asked only when the request differs from the default; the stored size is the read-back size or the default; the adjustment warning fires exactly when less than the request was stored |
| BufferSizes.StoredAtLeastOverhead | cpp/src/Ice/UdpTransceiver.cpp:608-641 | with an OS default of at least 28, the request is at least 28, and without an adjustment warning the stored size is at least the request |
| BufferSizes.SetBufSizes | cpp/src/Ice/UdpTransceiver.cpp:576-644 | every receive-direction call comes before every send-direction call, each direction from its own inputs only; a set call is issued for a direction exactly when its negotiation asks for one, with the requested size, and is followed at once by the read-back of that direction; no other call is issued |
| DatagramWrite.SendAttempt | cpp/src/Ice/UdpTransceiver.cpp:127-212 | each attempt sends the whole buffer; a first reply that sends the whole buffer returns true, and a first reply with any other error raises SocketException with its code; success means the whole buffer was sent by the last reply consumed; a zero timeout never waits or times out; Timeout only after an expired wait |
| DatagramWrite.AwaitWritable | cpp/src/Ice/UdpTransceiver.cpp:143-191 | a zero timeout returns false without a call; otherwise it first waits for writability with the caller's timeout, an expired first wait raises Timeout, a failed first wait raises SocketException with its code, and Timeout comes only after an expired wait |
| DatagramWrite.Write | cpp/src/Ice/UdpTransceiver.cpp:108-213 | DatagramLimit exactly for a buffer above the send ceiling, with no call issued; otherwise the first call is a send; success consumes the whole buffer and ends with its send; a zero timeout never waits and never times out; Timeout only after an expired wait |
| DatagramWrite.FirstDecisive | cpp/src/Ice/UdpTransceiver.cpp:136-141 | the position of the first send reply that is not an interruption; every reply before it is one |
| DatagramWrite.WriteFirstReplyDecides | cpp/src/Ice/UdpTransceiver.cpp:136-197 | for any timeout, the first send reply that is not an interruption decides the write: a whole-buffer send returns true, a short count fails the count assertion, any other error raises SocketException, each after that one send and no wait; would-block hands over to the wait on the remaining replies |
| DatagramWrite.NonBlockingWrite | cpp/src/Ice/UdpTransceiver.cpp:136-149 | with timeout 0, the first non-interrupted send reply alone decides the result (true, false or SocketException); no wait reply is consumed |
| DatagramWrite.InterruptedSendsAbsorbed | cpp/src/Ice/UdpTransceiver.cpp:136-141 | any number of interrupted sends leaves the outcome and the waits unchanged and adds one send each |
| DatagramWrite.InterruptedWritableWaitsAbsorbed | cpp/src/Ice/UdpTransceiver.cpp:174-179 | any number of interrupted waits leaves the outcome and the sends consumed unchanged; the write either never waits, or issues one more wait per interruption |
| DatagramWrite.WriteBlockedThenWait | cpp/src/Ice/UdpTransceiver.cpp:143-191 | with a timeout other than 0, after interrupted sends, a would-block, and interrupted waits: an expired wait raises Timeout, a failed wait raises SocketException with its code, and readiness restarts the write on the remaining replies |
| DatagramWrite.CheckSendSize | cpp/src/Ice/UdpTransceiver.cpp:393-405 | MemoryLimit exactly above the message size limit, and it wins; otherwise DatagramLimit exactly above the send ceiling; otherwise accepted |
| DatagramWrite.CheckSendSizeAgreesWithWrite | cpp/src/Ice/UdpTransceiver.cpp:400-404 | within the message size limit, checkSendSize accepts a buffer exactly when write gets as far as sending it |
| DatagramRead.Deliver | cpp/src/Ice/UdpTransceiver.cpp:361-363 | the bytes received are a prefix of the datagram, at most the capacity, and the whole datagram when it fits |
| DatagramRead.ReceiveAttempt | cpp/src/Ice/UdpTransceiver.cpp:242-348 | the flag is checked before every receive, and every receive uses the ceiling; ConnectionLost exactly when the flag is set; with the flag clear, a truncated receive raises DatagramLimit, any other receive error raises SocketException with its code, would-block with timeout 0 returns false unchanged, and a datagram is returned (clipped to the ceiling) unless the connect to its sender fails, which raises that error; while a connect is pending, the calls are exactly the flag check, one receive-with-sender and a connect to that datagram's sender; pending connect is cleared only by that connect succeeding |
| DatagramRead.AwaitReadable | cpp/src/Ice/UdpTransceiver.cpp:300-330 | every wait is unbounded and for readability; an expired first wait raises Timeout and a failed first wait raises SocketException with its code; readiness goes back to the flag check |
| DatagramRead.Read | cpp/src/Ice/UdpTransceiver.cpp:215-364 | DatagramLimit with no call and no change for a buffer above the receive ceiling; otherwise receives use exactly the ceiling and each follows a clear flag check; a set flag raises ConnectionLost with no receive; data fits the ceiling; pending connect only goes true to false, and only on success |
| DatagramRead.ReadNeverTimesOut | cpp/src/Ice/UdpTransceiver.cpp:300-328 | if the OS never reports an expired wait, a read never raises Timeout, whatever its timeout |
| DatagramRead.InterruptedAttempts | cpp/src/Ice/UdpTransceiver.cpp:286-291 | k receive attempts that each find the flag clear and are interrupted |
| DatagramRead.InterruptedReceivesAbsorbed | cpp/src/Ice/UdpTransceiver.cpp:286-291 | any number of interrupted receives leaves the outcome and the final state unchanged and adds a flag check and a receive for each |
| DatagramRead.ReadFirstReplyDecides | cpp/src/Ice/UdpTransceiver.cpp:242-348 | for any timeout, after any number of interrupted receives, the next attempt decides the read: a shutdown raises ConnectionLost, truncation raises DatagramLimit, another receive error raises SocketException with its code, would-block returns false unchanged with timeout 0 and otherwise hands over to the wait, and a datagram is returned, with a pending connect made to that datagram's sender as the last call, unless that connect fails |
| DatagramRead.ReadBlockedThenWait | cpp/src/Ice/UdpTransceiver.cpp:293-331 | with a timeout other than 0, after interrupted receives, a would-block, and interrupted waits: an expired wait raises Timeout, a failed wait raises SocketException with its code, and readiness restarts the read on the remaining replies |
| DatagramRead.InterruptedReadableWaitsAbsorbed | cpp/src/Ice/UdpTransceiver.cpp:313-318 | any number of interrupted waits leaves the outcome and the final state unchanged; the read either never waits, or issues one more wait per interruption |
| Construction.SenderOptions | cpp/src/Ice/UdpTransceiver.cpp:446-456 | only the interface and TTL options for the peer's family |
| Construction.SocketSetup | cpp/src/Ice/UdpTransceiver.cpp:426-428 | the socket is created first and made non-blocking last, and the calls in between are exactly those of the buffer-size negotiation |
| Construction.OutboundPlan | cpp/src/Ice/UdpTransceiver.cpp:424-456 | the interface is set exactly for a multicast peer with a named interface; the TTL exactly for a multicast peer with TTL other than -1; no bind, reuse or join |
| Construction.OutboundConnectsFirst | cpp/src/Ice/UdpTransceiver.cpp:428-456 | the peer is connected exactly once, right after the socket is made non-blocking and before any multicast option |
| Construction.ReceiverBind | cpp/src/Ice/UdpTransceiver.cpp:511-547 | a group is joined exactly for a multicast address; reuse is set exactly for multicast or on non-Windows platforms; one bind, to the wildcard address for a multicast group on Windows and to the address otherwise; for a group, reuse comes first and join last |
| Construction.InboundPlan | cpp/src/Ice/UdpTransceiver.cpp:486-547 | resolve, then create; join exactly for multicast and as the last call; reuse exactly for multicast or non-Windows platforms; the right bind target; no connect or sender options |
| Construction.Abandoned | cpp/src/Ice/UdpTransceiver.cpp:464-468 | the catch blocks leave the handle invalid, a state that would meet the destructor's assertion; the destructor itself does not run, because a C++ constructor that throws never completes the object |
| Construction.RunPlan | cpp/src/Ice/UdpTransceiver.cpp:424-468 | either every call succeeds, or the calls up to the failing one are issued and the handle is invalid |
| Construction.ConstructOutbound | cpp/src/Ice/UdpTransceiver.cpp:413-474 | on success: open, outgoing, no connect pending, not a multicast server, the negotiated sizes; on failure: the handle is invalid and the failing call was the last issued |
| Construction.ConstructInbound | cpp/src/Ice/UdpTransceiver.cpp:476-565 | on success: open, incoming, connect pending exactly when asked, multicast server exactly for a group, the negotiated sizes; on failure: the handle is invalid |
| Lifecycle.Step | cpp/src/Ice/UdpTransceiver.cpp:256-279 | one read, write or shutdown keeps the handle open, changes only the two flags, each in its one allowed direction, and never moves the phase back |
| Lifecycle.Run | cpp/src/Ice/UdpTransceiver.cpp:256-271 | over any sequence of reads, writes and shutdowns, the same holds: a connect once made stays made, and a shutdown once requested stays requested |
| Lifecycle.ReadsAfterShutdownAreLost | cpp/src/Ice/UdpTransceiver.cpp:242-253 | after shutdownReadWrite, every later read within the ceiling raises ConnectionLost at its first check, without receiving |
| Lifecycle.DatagramIntegrity | cpp/src/Ice/UdpTransceiver.cpp:225-240 | the datagram a successful write sent is read back byte for byte by a receiver whose buffer is at least the sender's |
| Findings.ExceedsCeilingAsWritten | cpp/src/Ice/UdpTransceiver.cpp:118 | the ceiling test with the 32-bit cast, as written on lines 118, 226 and 401 |
| Findings.AsWrittenAgreesBelowTwoGiB | cpp/src/Ice/UdpTransceiver.cpp:401 | for sizes below 2^31, the written test and the true test agree |
| Findings.CastLetsOversizeBufferThrough | cpp/src/Ice/UdpTransceiver.cpp:118 | a 2^31-byte buffer passes the written test although it exceeds the ceiling |
| Findings.OversizeAlwaysRefused | cpp/src/Ice/UdpTransceiver.cpp:117-124 | with the corrected test, write and checkSendSize refuse every buffer above 65507 bytes, and write issues no call |
| Findings.ReadAsWritten | cpp/src/Ice/UdpTransceiver.cpp:225-240 | read with the 32-bit cast as written: a buffer that fails the written test raises DatagramLimit with no call; one that passes runs the receive loop at the ceiling, or resizes to a negative length when the ceiling is negative |
| Findings.ReadCastShrinksOversizeBuffer | cpp/src/Ice/UdpTransceiver.cpp:226 | a 2^31-byte caller buffer with a 65535-byte receive buffer passes the written test and goes on to receive with capacity 65507, where the corrected read raises DatagramLimit with no call |
| Findings.OversizeReadRefused | cpp/src/Ice/UdpTransceiver.cpp:225-234 | with the corrected test, read refuses every caller buffer above 65507 bytes before any call and leaves the transceiver unchanged |
| Findings.McastServerAsWritten | cpp/src/Ice/UdpTransceiver.cpp:527 | `_mcastServer` is only ever assigned true |
| Findings.McastServerLeftUnset | cpp/src/Ice/UdpTransceiver.cpp:413-423 | outbound transceivers and unicast receivers leave `_mcastServer` unassigned |

## Left out

- The decoy wake-up in `shutdownReadWrite` (lines 66-105), the OS-level shutdown call and the mutex are left out. Only the flag's effect is modelled. It depends on threads and the platform.
- `shutdownWrite` is left out because its body is empty. `initialize` is left out because it always returns Finished.
- `type`, `toString` and `effectivePort` are left out. They only describe the transceiver and do not affect its behaviour.
- Tracing, logging, statistics, the debug `cerr` on line 123 and the `Ice.Warn.Datagrams` warnings of `read` are left out. They only observe behaviour.
- `getAddressForServer`, `doConnect`, `doBind`, `createSocket`, `setBlock` and the other Network.cpp helpers are not part of this model. Their results are parameters, and an error from `doConnect` after `recvfrom` is the abstract `ConnectError`.
- Windows `FD_ZERO`/`FD_SET` bookkeeping is left out. Polling is one abstract `Wait` action. A write's wait limit comes from its timeout; a read's is always unbounded. The Windows `timeval` conversion is stated separately (`UdpSyscalls.Timeval`).
- The `throw new Ice::TimeoutException` quirk on line 188 is left out. It is modelled as a plain Timeout outcome.
- The assertions `buf.i == buf.b.begin()` are left out, because the model has no buffer positions. The assertions `_fd != INVALID_SOCKET` inside the loops become the `handle.Open?` precondition of `Write` and `Read`.
- A failed `assert(ret == size)` after a send is modelled as the outcome `SendCountMismatch`. The model does not say whether that aborts the process.
- DatagramRead.Deliver: models the OS copying at most the buffer's length of an oversize datagram, as `recv` does where no truncation error is reported. `RecvTruncated` stands for the platforms that do report one.
- Integer widths are unbounded in the model. The one overflow that matters is the `static_cast<int>` of a buffer size on lines 118, 226 and 401, shown under Findings. The sizes passed to and returned by the OS calls are taken to fit their C types.
- A call that keeps being interrupted forever cannot be represented. The reply sequences are finite, and running out of them yields `Unfinished`.

## Findings

| source | as written | input that shows it | evidently intended | confidence | as-written member | corrected member |
|---|---|---|---|---|---|---|
| cpp/src/Ice/UdpTransceiver.cpp:118 | `packetSize < static_cast<int>(buf.b.size())` wraps sizes of 2^31 bytes or more to negative or small values (the same test is on line 401 in `checkSendSize`) | a buffer of 2^31 bytes with a 65535-byte send buffer passes the test and reaches `send` instead of raising DatagramLimit; in `checkSendSize` this needs a message size limit of at least 2^31 | compare the true size with the ceiling | low: needs multi-gigabyte buffers; not executed | Findings.CastLetsOversizeBufferThrough | Findings.OversizeAlwaysRefused |
| cpp/src/Ice/UdpTransceiver.cpp:226 | `read` applies the same `static_cast<int>(buf.b.size())` to the caller's buffer before comparing it with the receive ceiling, then resizes the buffer to the ceiling (line 239) | a caller buffer of 2^31 bytes with a 65535-byte receive buffer passes the test, is silently shrunk to 65507 bytes and the read goes on to receive, instead of raising DatagramLimit | compare the true size with the ceiling | low: needs a multi-gigabyte caller buffer; not executed | Findings.ReadCastShrinksOversizeBuffer | Findings.OversizeReadRefused |
| cpp/src/Ice/UdpTransceiver.cpp:413-423 | `_mcastServer` is in neither initializer list and is assigned only for a multicast receiver (line 527), yet `toString` (line 375) reads it | any outbound transceiver, e.g. towards 192.0.2.1 | initialise it to false, so it is true only for a multicast receiver | medium: the class header is not part of this model; not executed | Findings.McastServerLeftUnset | Construction.ConstructOutbound |

=== FILE: address.dfy ===
/** Socket addresses and the multicast test both constructors apply to them. */
module UdpAddress {

  type Port = p: int | 0 <= p < 0x1_0000

  type Ipv6Octets = s: seq<bv8> | |s| == 16 witness seq(16, i => 0 as bv8)

  /** An IPv4 address with its four octets in network order, or an IPv6 address. */
  datatype Addr =
    | V4(a: bv8, b: bv8, c: bv8, d: bv8, port: Port)
    | V6(octets: Ipv6Octets, port: Port)
  {
    /** The socket family flag passed to the socket-option helpers (`AF_INET` or not). */
    predicate IsV4() { V4? }
  }

  /** The IPv4 address in host byte order, as `ntohl` yields it. */
  function HostOrder(x: Addr): bv32
    requires x.V4?
  {
    (x.a as bv32 << 24) | (x.b as bv32 << 16) | (x.c as bv32 << 8) | (x.d as bv32)
  }

  /** The multicast test as the source writes it: `IN_MULTICAST` on the host-order IPv4
      address (top four bits 1110), `IN6_IS_ADDR_MULTICAST` (first octet 0xFF) otherwise. */
  predicate IsMulticast(x: Addr)
  {
    match x
    case V4(_, _, _, _, _) => HostOrder(x) & 0xF000_0000 == 0xE000_0000
    case V6(o, _) => o[0] == 0xFF
  }

  /** The multicast ranges as the standards write them: 224.0.0.0 to 239.255.255.255
      (section 2 of RFC 5771) and ff00::/8 (section 2.7 of RFC 4291). */
  predicate InMulticastRange(x: Addr)
  {
    match x
    case V4(a, _, _, _, _) => 224 <= a as int <= 239
    case V6(o, _) => o[0] as int == 255
  }

  /** The bit test on the assembled 32-bit address agrees with the octet ranges of the
      standards, for every address. */
  lemma MulticastMatchesStandard(x: Addr)
    ensures IsMulticast(x) <==> InMulticastRange(x)
  {
  }
}

=== FILE: bufsize.dfy ===
/** Buffer-size negotiation (setBufSize): for each direction, the OS default, the configured
    override and the size the OS reports after a change decide the stored size and the
    warnings. */
module BufferSizes {
  import opened Wrappers
  import opened UdpLimits
  import opened UdpSyscalls

  /** The outcome for one direction: the size asked of the OS, whether the set call is
      issued, the size stored, and the two warnings (invalid override, size adjusted). */
  datatype Negotiation = Negotiation(
    requested: int,
    setCalled: bool,
    stored: int,
    invalidWarning: bool,
    adjustedWarning: bool)

  /** One direction. `configured` is the property value (None when the property is unset,
      in which case the lookup yields the default); `readBack` is what the OS reports after
      the set call. */
  function Negotiate(dflt: int, configured: Option<int>, readBack: int): (n: Negotiation)
    // A configured size below the overhead (or an unset one over a default below the
    // overhead) is replaced by the default, with a warning.
    ensures n.invalidWarning <==> configured.GetOr(dflt) < UdpOverhead
    ensures configured.Some? && configured.value >= UdpOverhead ==> n.requested == configured.value
    ensures configured.None? || configured.value < UdpOverhead ==> n.requested == dflt
    // The OS is asked to change the size only when the request differs from the default,
    // so an unset property never changes anything.
    ensures n.setCalled <==> n.requested != dflt
    ensures configured.None? ==> !n.setCalled && n.stored == dflt
    // The stored size is what the OS reports, or the default when nothing was set.
    ensures n.setCalled ==> n.stored == readBack
    ensures !n.setCalled ==> n.stored == dflt
    // The adjustment warning fires exactly when less than the request was granted.
    ensures n.adjustedWarning <==> n.stored < n.requested
  {
    var asked := configured.GetOr(dflt);
    var invalid := asked < UdpOverhead;
    var requested := if invalid then dflt else asked;
    if requested != dflt then
      Negotiation(requested, true, readBack, invalid, readBack < requested)
    else
      Negotiation(requested, false, dflt, invalid, false)
  }

  /** When the OS default is at least the overhead and the OS grants the request in full,
      the stored size is at least the overhead and at least the request. The OS may still
      grant less than the overhead, in which case the stored size is below it. */
  lemma StoredAtLeastOverhead(dflt: int, configured: Option<int>, readBack: int)
    requires dflt >= UdpOverhead
    ensures var n := Negotiate(dflt, configured, readBack);
      n.requested >= UdpOverhead && (!n.adjustedWarning ==> n.stored >= n.requested)
  {
  }

  /** A direction's negotiation inputs: the OS default, the configured value, and what the
      OS reports after a set call. */
  datatype DirectionEnv = DirectionEnv(dflt: int, configured: Option<int>, readBack: int)

  /** The inputs for both directions. */
  datatype BufferEnv = BufferEnv(rcv: DirectionEnv, snd: DirectionEnv)

  /** Result of negotiating both directions, with the calls issued in order. */
  datatype BufSizes = BufSizes(rcv: Negotiation, snd: Negotiation, actions: seq<Action>)

  function NegotiateDir(e: DirectionEnv): Negotiation
  {
    Negotiate(e.dflt, e.configured, e.readBack)
  }

  /** The calls one direction issues: read the default, then set and read back only when
      the request differs from the default. */
  function DirectionCalls(dir: Direction, n: Negotiation): seq<Action>
  {
    [GetBufSize(dir)] + (if n.setCalled then [SetBufSize(dir, n.requested), GetBufSize(dir)] else [])
  }

  /** setBufSize(): every call for the receive direction comes before any call for the send
      direction, each direction is negotiated from its own inputs only, and every set call
      is followed at once by the read-back its stored size comes from. */
  function SetBufSizes(env: BufferEnv): (r: BufSizes)
    ensures r.rcv == NegotiateDir(env.rcv) && r.snd == NegotiateDir(env.snd)
    ensures |r.actions| >= 2 && r.actions[0] == GetBufSize(ReceiveBuffer)
    ensures forall i :: 0 <= i < |r.actions| ==> r.actions[i].GetBufSize? || r.actions[i].SetBufSize?
    ensures forall i :: 0 <= i < |r.actions| && r.actions[i].SetBufSize? ==>
      (r.actions[i].dir == ReceiveBuffer && r.rcv.setCalled && r.actions[i].size == r.rcv.requested) ||
      (r.actions[i].dir == SendBuffer && r.snd.setCalled && r.actions[i].size == r.snd.requested)
    ensures (exists i :: 0 <= i < |r.actions| && r.actions[i] == SetBufSize(ReceiveBuffer, r.rcv.requested)) <==> r.rcv.setCalled
    ensures (exists i :: 0 <= i < |r.actions| && r.actions[i] == SetBufSize(SendBuffer, r.snd.requested)) <==> r.snd.setCalled
    ensures var s := if r.rcv.setCalled then 3 else 1;
      && s < |r.actions|
      && (forall i :: 0 <= i < s ==> r.actions[i].dir == ReceiveBuffer)
      && (forall i :: s <= i < |r.actions| ==> r.actions[i].dir == SendBuffer)
    ensures forall i :: 0 <= i < |r.actions| && r.actions[i].SetBufSize? ==>
      i + 1 < |r.actions| && r.actions[i + 1] == GetBufSize(r.actions[i].dir)
    ensures |r.actions| == (if r.rcv.setCalled then 3 else 1) + (if r.snd.setCalled then 3 else 1)
  {
    var rcv := NegotiateDir(env.rcv);
    var snd := NegotiateDir(env.snd);
    var rc := DirectionCalls(ReceiveBuffer, rcv);
    var sc := DirectionCalls(SendBuffer, snd);
    assert sc[0] == GetBufSize(SendBuffer);
    assert rcv.setCalled ==> (rc + sc)[1] == SetBufSize(ReceiveBuffer, rcv.requested);
    assert snd.setCalled ==> (rc + sc)[|rc| + 1] == SetBufSize(SendBuffer, snd.requested);
    BufSizes(rcv, snd, rc + sc)
  }
}

=== FILE: construct.dfy ===
/** The two constructors: the ordered socket-configuration calls each issues, and the
    transceiver it leaves behind when all succeed or when one of them fails. */
module Construction {
  import opened Wrappers
  import opened UdpAddress
  import opened UdpSyscalls
  import opened UdpState
  import opened BufferSizes

  /** Bind and address-reuse behaviour differs between Windows and the other platforms. */
  datatype Platform = Windows | Posix

  /** A constructor's result: the transceiver, whether one of its calls failed, and the
      calls issued (the failing one last). */
  datatype Built = Built(t: Transceiver, failed: bool, performed: seq<Action>)

  /** The multicast options of the outbound constructor: an interface only when one is
      named, a TTL only when it is not -1, and neither for a unicast peer. */
  function SenderOptions(addr: Addr, iface: string, ttl: int): (opts: seq<Action>)
    ensures forall i :: 0 <= i < |opts| ==>
      opts[i] == SetMcastInterface(iface, addr.IsV4()) || opts[i] == SetMcastTtl(ttl, addr.IsV4())
  {
    (if IsMulticast(addr) && |iface| > 0 then [SetMcastInterface(iface, addr.IsV4())] else []) +
    (if IsMulticast(addr) && ttl != -1 then [SetMcastTtl(ttl, addr.IsV4())] else [])
  }

  /** Creating the socket, negotiating its buffer sizes, making it non-blocking; the
      first calls of both constructors after the address is known. */
  function SocketSetup(v4: bool, env: BufferEnv): (s: seq<Action>)
    ensures |s| >= 4 && s[0] == CreateSocket(v4) && s[|s| - 1] == SetNonBlocking
    ensures forall i :: 0 <= i < |s| ==>
      s[i].CreateSocket? || s[i].GetBufSize? || s[i].SetBufSize? || s[i] == SetNonBlocking
    ensures s[1..|s| - 1] == SetBufSizes(env).actions
  {
    [CreateSocket(v4)] + SetBufSizes(env).actions + [SetNonBlocking]
  }

  /** The calls of the outbound constructor, in order: create, negotiate buffer sizes,
      make non-blocking, connect to the peer, then the multicast options. */
  function OutboundPlan(addr: Addr, iface: string, ttl: int, env: BufferEnv): (plan: seq<Action>)
    ensures |plan| >= 5 && plan[0] == CreateSocket(addr.IsV4())
    ensures SetMcastInterface(iface, addr.IsV4()) in plan <==> IsMulticast(addr) && |iface| > 0
    ensures SetMcastTtl(ttl, addr.IsV4()) in plan <==> IsMulticast(addr) && ttl != -1
    ensures forall i :: 0 <= i < |plan| ==> !plan[i].Bind? && !plan[i].JoinGroup? && !plan[i].SetReuseAddress?
  {
    var setup := SocketSetup(addr.IsV4(), env) + [Connect(addr)];
    var opts := SenderOptions(addr, iface, ttl);
    setup + opts
  }

  /** Every multicast option is applied after the socket is made non-blocking and connected
      to its peer, which happens exactly once. */
  lemma OutboundConnectsFirst(addr: Addr, iface: string, ttl: int, env: BufferEnv)
    ensures var plan := OutboundPlan(addr, iface, ttl, env);
      var c := |plan| - |SenderOptions(addr, iface, ttl)| - 1;
      && 0 < c < |plan| && plan[c] == Connect(addr) && plan[c - 1] == SetNonBlocking
      && (forall i :: 0 <= i < |plan| && plan[i].Connect? ==> i == c)
      && (forall i :: 0 <= i < |plan| && (plan[i].SetMcastInterface? || plan[i].SetMcastTtl?) ==> c < i)
  {
    var setup := SocketSetup(addr.IsV4(), env) + [Connect(addr)];
    var opts := SenderOptions(addr, iface, ttl);
    var plan := setup + opts;
    var c := |setup| - 1;
    assert plan[c] == Connect(addr) && plan[c - 1] == SetNonBlocking;
    forall i | 0 <= i < |plan|
      ensures plan[i].Connect? ==> i == c
      ensures plan[i].SetMcastInterface? || plan[i].SetMcastTtl? ==> c < i
    {
      if i < c {
        assert plan[i] == SocketSetup(addr.IsV4(), env)[i];
      } else if i > c {
        assert plan[i] == opts[i - |setup|];
      }
    }
  }

  /** The bind calls of the inbound constructor. A multicast group: allow address reuse,
      bind (to the wildcard address on the group's port on Windows, which refuses binding
      to the group address, otherwise to the group address), then join the group. A
      unicast address: allow address reuse except on Windows, then bind to it. */
  function ReceiverBind(addr: Addr, iface: string, platform: Platform): (calls: seq<Action>)
    ensures |calls| >= (if IsMulticast(addr) then 3 else 1)
    ensures JoinGroup(addr, iface) in calls <==> IsMulticast(addr)
    ensures SetReuseAddress in calls <==> IsMulticast(addr) || platform != Windows
    ensures calls[|calls| - (if IsMulticast(addr) then 2 else 1)] ==
      Bind(if IsMulticast(addr) && platform == Windows then BindWildcard(addr.port) else BindTo(addr))
    ensures forall i :: 0 <= i < |calls| && calls[i].Bind? ==> i == |calls| - (if IsMulticast(addr) then 2 else 1)
    ensures IsMulticast(addr) ==> calls[0] == SetReuseAddress && calls[|calls| - 1] == JoinGroup(addr, iface)
    ensures forall i :: 0 <= i < |calls| ==>
      !calls[i].Connect? && !calls[i].SetMcastInterface? && !calls[i].SetMcastTtl? && !calls[i].CreateSocket?
  {
    if IsMulticast(addr) then
      if platform == Windows then
        [SetReuseAddress, ResolveLocal("", addr.port), Bind(BindWildcard(addr.port)), JoinGroup(addr, iface)]
      else
        [SetReuseAddress, Bind(BindTo(addr)), JoinGroup(addr, iface)]
    else
      (if platform == Windows then [] else [SetReuseAddress]) + [Bind(BindTo(addr))]
  }

  /** The calls of the inbound constructor, in order: resolve the local address, create,
      negotiate buffer sizes, make non-blocking, then the bind calls; a multicast receiver
      ends by joining the group. */
  function InboundPlan(host: string, port: int, local: Addr, iface: string, platform: Platform, env: BufferEnv): (plan: seq<Action>)
    ensures |plan| >= 6 && plan[0] == ResolveLocal(host, port) && plan[1] == CreateSocket(local.IsV4())
    ensures JoinGroup(local, iface) in plan <==> IsMulticast(local)
    ensures SetReuseAddress in plan <==> IsMulticast(local) || platform != Windows
    ensures Bind(if IsMulticast(local) && platform == Windows then BindWildcard(local.port) else BindTo(local)) in plan
    ensures IsMulticast(local) ==> plan[|plan| - 1] == JoinGroup(local, iface)
    ensures forall i :: 0 <= i < |plan| ==> !plan[i].Connect? && !plan[i].SetMcastInterface? && !plan[i].SetMcastTtl?
  {
    var head := [ResolveLocal(host, port)] + SocketSetup(local.IsV4(), env);
    var tail := ReceiverBind(local, iface, platform);
    var plan := head + tail;
    assert !(JoinGroup(local, iface) in head) && !(SetReuseAddress in head);
    assert plan[|plan| - 1] == tail[|tail| - 1];
    plan
  }

  /** The state a failed constructor leaves behind: its handle is invalid. A C++ constructor
      that throws never completes the object, so the destructor does not run on it; MayDestroy
      only states that the destructor's assertion would hold for this state. */
  function Abandoned(t: Transceiver): (u: Transceiver)
    ensures MayDestroy(u)
  {
    t.(handle := Invalid)
  }

  /** Run a plan whose call at index `failAt` (if any) raises: either every call succeeds
      and `done` is the transceiver, or the calls up to the failing one are issued and the
      transceiver is left with an invalid handle. */
  function RunPlan(plan: seq<Action>, failAt: Option<nat>, done: Transceiver): (c: Built)
    ensures !c.failed <==> failAt.None? || failAt.value >= |plan|
    ensures !c.failed ==> c.performed == plan && c.t == done
    ensures c.failed ==> c.performed == plan[..failAt.value + 1] && MayDestroy(c.t)
  {
    if failAt.Some? && failAt.value < |plan| then Built(Abandoned(done), true, plan[..failAt.value + 1])
    else Built(done, false, plan)
  }

  /** The outbound (connect-mode) constructor for peer `addr`, given the descriptor the OS
      hands out. The transceiver it builds sends to a fixed peer: it is open, outgoing, has
      no connect pending, is not a multicast server, and holds the negotiated sizes. */
  function ConstructOutbound(addr: Addr, iface: string, ttl: int, env: BufferEnv, fd: nat, failAt: Option<nat>): (c: Built)
    ensures var plan := OutboundPlan(addr, iface, ttl, env);
      && (!c.failed <==> failAt.None? || failAt.value >= |plan|)
      && (c.failed ==> c.performed == plan[..failAt.value + 1] && MayDestroy(c.t))
      && (!c.failed ==> c.performed == plan)
    ensures !c.failed ==>
      && c.t.handle == Open(fd) && PhaseOf(c.t) == Active
      && !c.t.incoming && !c.t.pendingConnect && !c.t.mcastServer
      && c.t.addr == addr
      && c.t.rcvSize == NegotiateDir(env.rcv).stored && c.t.sndSize == NegotiateDir(env.snd).stored
  {
    var sizes := SetBufSizes(env);
    var t := Transceiver(Open(fd), false, addr, false, false, sizes.rcv.stored, sizes.snd.stored, false);
    RunPlan(OutboundPlan(addr, iface, ttl, env), failAt, t)
  }

  /** The inbound (bind-mode) constructor for host and port, which the address helper
      resolves to `local`. The transceiver it builds is open, incoming, connects to its
      first sender exactly when `connect` is set, and is a multicast server exactly when
      `local` is a multicast group. */
  function ConstructInbound(host: string, port: int, local: Addr, iface: string, connect: bool, platform: Platform,
                            env: BufferEnv, fd: nat, failAt: Option<nat>): (c: Built)
    ensures var plan := InboundPlan(host, port, local, iface, platform, env);
      && (!c.failed <==> failAt.None? || failAt.value >= |plan|)
      && (c.failed ==> c.performed == plan[..failAt.value + 1] && MayDestroy(c.t))
      && (!c.failed ==> c.performed == plan)
    ensures !c.failed ==>
      && c.t.handle == Open(fd) && PhaseOf(c.t) == Active
      && c.t.incoming && c.t.addr == local
      && (c.t.pendingConnect <==> connect)
      && (c.t.mcastServer <==> IsMulticast(local))
      && c.t.rcvSize == NegotiateDir(env.rcv).stored && c.t.sndSize == NegotiateDir(env.snd).stored
  {
    var sizes := SetBufSizes(env);
    var t := Transceiver(Open(fd), true, local, connect, IsMulticast(local), sizes.rcv.stored, sizes.snd.stored, false);
    RunPlan(InboundPlan(host, port, local, iface, platform, env), failAt, t)
  }
}

=== FILE: findings.dfy ===
/** Three places where the source does not do what it evidently intends, each as written and
    as corrected. The rest of the model uses the corrected forms. */
module Findings {
  import opened Wrappers
  import opened UdpLimits
  import opened UdpSyscalls
  import opened UdpState
  import opened DatagramWrite
  import opened DatagramRead

  /** The ceiling test of write, read and checkSendSize as written: the buffer size is cast
      to a 32-bit `int` before the comparison. */
  predicate ExceedsCeilingAsWritten(bufSize: int, size: nat)
  {
    Ceiling(bufSize) < AsInt32(size)
  }

  /** Below 2^31 bytes the cast changes nothing... */
  lemma AsWrittenAgreesBelowTwoGiB(bufSize: int, size: nat)
    requires size < 0x8000_0000
    ensures ExceedsCeilingAsWritten(bufSize, size) <==> ExceedsCeiling(bufSize, size)
  {
  }

  /** ...but a buffer of 2^31 bytes wraps to a negative `int`, passes the test, and goes on
      to the send call instead of raising DatagramLimit. */
  lemma CastLetsOversizeBufferThrough()
    ensures !ExceedsCeilingAsWritten(65535, 0x8000_0000)
    ensures ExceedsCeiling(65535, 0x8000_0000)
  {
  }

  /** With the comparison done on the true size, every buffer above 65507 bytes is refused
      by both write and checkSendSize before any call is issued. */
  lemma OversizeAlwaysRefused(t: Transceiver, buf: seq<bv8>, messageSizeMax: nat, timeout: int, sends: seq<SendReply>, waits: seq<WaitReply>)
    requires t.handle.Open?
    requires |buf| > MaxPacketSize
    ensures var r := Write(t, buf, timeout, sends, waits);
      r.outcome == WriteRaised(DatagramLimit) && r.trace == []
    ensures CheckSendSize(t, |buf|, messageSizeMax).Some?
  {
  }

  /** read as written: the caller's buffer size goes through the same cast before the
      ceiling test; a buffer that passes is resized to the ceiling and the receive loop
      runs. None stands for a buffer that passes although the ceiling itself is negative (a
      receive buffer below 28 bytes), which resizes the buffer to a negative length. */
  function ReadAsWritten(t: Transceiver, requested: nat, timeout: int, attempts: seq<Attempt>, waits: seq<WaitReply>): (r: Option<ReadRun>)
    requires t.handle.Open?
    ensures ExceedsCeilingAsWritten(t.rcvSize, requested) ==> r == Some(ReadRun(ReadRaised(DatagramLimit), t, []))
    ensures !ExceedsCeilingAsWritten(t.rcvSize, requested) ==> (r.None? <==> Ceiling(t.rcvSize) < 0)
    ensures r.Some? && !ExceedsCeilingAsWritten(t.rcvSize, requested) ==>
      |r.value.trace| > 0 && r.value.trace[0].CheckShutdown? && ReadCallsOk(r.value.trace, Ceiling(t.rcvSize))
  {
    var cap := Ceiling(t.rcvSize);
    if ExceedsCeilingAsWritten(t.rcvSize, requested) then Some(ReadRun(ReadRaised(DatagramLimit), t, []))
    else if cap < 0 then None
    else Some(ReceiveAttempt(t, cap, timeout, attempts, waits))
  }

  /** A 2^31-byte caller buffer with a 65535-byte receive buffer passes the written test of
      read, is silently shrunk to the 65507-byte ceiling, and the read goes on to check the
      flag and receive, where the corrected read refuses it before any call. */
  lemma ReadCastShrinksOversizeBuffer(t: Transceiver, timeout: int, attempts: seq<Attempt>, waits: seq<WaitReply>)
    requires t.handle.Open? && t.rcvSize == 65535 && !t.shutdownRequested
    ensures var r := ReadAsWritten(t, 0x8000_0000, timeout, attempts, waits);
      && r.Some? && |r.value.trace| > 0
      && (attempts != [] && !attempts[0].shutdownBefore ==>
            |r.value.trace| >= 2 && r.value.trace[0] == CheckShutdown(false) && r.value.trace[1].capacity == MaxPacketSize)
    ensures Read(t, 0x8000_0000, timeout, attempts, waits) == ReadRun(ReadRaised(DatagramLimit), t, [])
  {
    CastLetsOversizeBufferThrough();
  }

  /** With the comparison done on the true size, read refuses every caller buffer above
      65507 bytes before any call, and leaves the transceiver unchanged. */
  lemma OversizeReadRefused(t: Transceiver, requested: nat, timeout: int, attempts: seq<Attempt>, waits: seq<WaitReply>)
    requires t.handle.Open?
    requires requested > MaxPacketSize
    ensures Read(t, requested, timeout, attempts, waits) == ReadRun(ReadRaised(DatagramLimit), t, [])
  {
  }

  /** What `_mcastServer` holds after construction as written: it is assigned only by the
      inbound constructor for a multicast group; None stands for a member never initialised. */
  function McastServerAsWritten(incoming: bool, multicast: bool): (v: Option<bool>)
    ensures v.Some? ==> v.value
  {
    if incoming && multicast then Some(true) else None
  }

  /** Every outbound transceiver, and every unicast receiver, is left with `_mcastServer`
      uninitialised, although toString reads it. */
  lemma McastServerLeftUnset(multicast: bool)
    ensures McastServerAsWritten(false, multicast).None?
    ensures McastServerAsWritten(true, false).None?
  {
  }
}

=== FILE: lifecycle.dfy ===
/** Sequences of calls on one transceiver, and what a datagram written by one transceiver
    becomes when another reads it. */
module Lifecycle {
  import opened UdpLimits
  import opened UdpAddress
  import opened UdpSyscalls
  import opened UdpState
  import opened DatagramWrite
  import opened DatagramRead

  /** A call made on an open transceiver, with the OS replies it will meet. */
  datatype Op =
    | ReadOp(requested: nat, timeout: int, attempts: seq<Attempt>, waits: seq<WaitReply>)
    | WriteOp(buf: seq<bv8>, timeout: int, sends: seq<SendReply>, waits: seq<WaitReply>)
    | ShutdownOp

  /** The transceiver after one call. */
  function Step(t: Transceiver, op: Op): (u: Transceiver)
    requires t.handle.Open?
    ensures u.handle == t.handle && StateStep(t, u)
    ensures Rank(PhaseOf(t)) <= Rank(PhaseOf(u))
  {
    match op
    case ReadOp(requested, timeout, attempts, waits) => Read(t, requested, timeout, attempts, waits).state
    case WriteOp(_, _, _, _) => t  // a write changes no transceiver state
    case ShutdownOp => ShutdownReadWrite(t)
  }

  /** The transceiver after a sequence of calls, none of them close. Across any such
      sequence the handle stays open, nothing but the two flags changes, a connect once
      made stays made, and a shutdown once requested stays requested. */
  function Run(t: Transceiver, ops: seq<Op>): (u: Transceiver)
    requires t.handle.Open?
    decreases |ops|
    ensures u.handle == t.handle && StateStep(t, u)
    ensures Rank(PhaseOf(t)) <= Rank(PhaseOf(u))
  {
    if ops == [] then t else Run(Step(t, ops[0]), ops[1..])
  }

  /** Once shutdownReadWrite has run, whatever else happens, every read that gets past the
      size check raises ConnectionLost at its first flag check and receives nothing. */
  lemma ReadsAfterShutdownAreLost(t: Transceiver, ops: seq<Op>, requested: nat, timeout: int, attempts: seq<Attempt>, waits: seq<WaitReply>)
    requires t.handle.Open?
    ensures var u := Run(ShutdownReadWrite(t), ops);
      requested <= Ceiling(u.rcvSize) ==>
        Read(u, requested, timeout, attempts, waits) == ReadRun(ReadRaised(ConnectionLost), u, [CheckShutdown(true)])
  {
  }

  /** A datagram a successful write sent is delivered whole, byte for byte, by a read on a
      receiver whose buffer is at least as large as the sender's: the send ceiling and the
      receive ceiling leave no room for truncation. */
  lemma DatagramIntegrity(sender: Transceiver, buf: seq<bv8>, wtimeout: int, sends: seq<SendReply>, swaits: seq<WaitReply>,
                          receiver: Transceiver, requested: nat, rtimeout: int, from: Addr, connect: ConnectReply)
    requires sender.handle.Open? && receiver.handle.Open? && !receiver.shutdownRequested
    requires Write(sender, buf, wtimeout, sends, swaits).outcome.Written?
    requires sender.sndSize <= receiver.rcvSize
    requires requested <= Ceiling(receiver.rcvSize)
    requires receiver.pendingConnect ==> connect == Connected
    ensures var w := Write(sender, buf, wtimeout, sends, swaits);
      var sent := w.trace[|w.trace| - 1].payload;
      Read(receiver, requested, rtimeout, [Attempt(false, Datagram(sent, from), connect)], []).outcome == Got(buf)
  {
    CeilingMonotonic(sender.sndSize, receiver.rcvSize);
    assert Deliver(buf, Ceiling(receiver.rcvSize)) == buf;
  }
}

=== FILE: limits.dfy ===
/** Datagram size ceilings shared by write, read and checkSendSize. */
module UdpLimits {

  /** 20 bytes of IP header plus 8 bytes of UDP header, charged against every datagram. */
  const UdpOverhead: int := 20 + 8

  /** The largest IP datagram (65535 bytes) minus the overhead: 65507 bytes of payload. */
  const MaxPacketSize: int := 65535 - UdpOverhead

  /** The payload ceiling of a socket whose OS buffer holds `bufSize` bytes:
      the smaller of the protocol maximum and the buffer less the overhead.
      It is negative when the OS reports a buffer smaller than the overhead. */
  function Ceiling(bufSize: int): (c: int)
    ensures c <= MaxPacketSize && c <= bufSize - UdpOverhead
    ensures c == MaxPacketSize || c == bufSize - UdpOverhead
  {
    if MaxPacketSize < bufSize - UdpOverhead then MaxPacketSize else bufSize - UdpOverhead
  }

  /** A payload of `size` bytes fits a buffer of `bufSize` bytes exactly when it is within
      the protocol maximum and leaves room for the headers. */
  lemma FitsCeiling(bufSize: int, size: int)
    ensures size <= Ceiling(bufSize) <==> size <= 65507 && size + 28 <= bufSize
  {
  }

  /** A larger OS buffer never lowers the ceiling. */
  lemma CeilingMonotonic(small: int, large: int)
    requires small <= large
    ensures Ceiling(small) <= Ceiling(large)
  {
  }

  /** The payload-size test used by write, read and checkSendSize: the buffer exceeds the ceiling.
      The comparison is done on unbounded integers (see Findings for the 32-bit cast the
      source applies to the buffer size). */
  predicate ExceedsCeiling(bufSize: int, size: nat)
  {
    Ceiling(bufSize) < size
  }

  /** Two's-complement conversion of an unsigned size to a 32-bit `int`, as
      `static_cast<int>` performs it on the platforms the source targets. */
  function AsInt32(n: nat): (r: int)
    ensures -0x8000_0000 <= r < 0x8000_0000
    ensures (n - r) % 0x1_0000_0000 == 0
    ensures n < 0x8000_0000 ==> r == n
  {
    var m := n % 0x1_0000_0000;
    if m < 0x8000_0000 then m else m - 0x1_0000_0000
  }
}

=== FILE: read.dfy ===
/** read(): the receive ceiling, the shutdown check, connect-on-first-packet and the
    receive/wait retry loop. The source's labels `repeat` and `repeatSelect` are the two
    mutually recursive functions ReceiveAttempt and AwaitReadable. */
module DatagramRead {
  import opened UdpLimits
  import opened UdpSyscalls
  import opened UdpState

  /** What one pass through `repeat` meets: whether a concurrent shutdownReadWrite has set
      the flag since the previous check, the receive's reply, and the reply to the connect
      issued after a successful receive-with-sender. */
  datatype Attempt = Attempt(shutdownBefore: bool, reply: RecvReply, connect: ConnectReply)

  /** How a read call ends: true with the bytes received, false (not ready), an exception,
      or still running when the supplied replies run out. */
  datatype ReadOutcome =
    | Got(data: seq<bv8>)
    | ReadNotReady
    | ReadRaised(failure: Failure)
    | ReadUnfinished

  /** The outcome, the transceiver afterwards, and the calls issued. */
  datatype ReadRun = ReadRun(outcome: ReadOutcome, state: Transceiver, trace: seq<Action>)

  /** The bytes a receive into a buffer of `cap` bytes yields for a datagram: the OS copies
      at most `cap` bytes of it. */
  function Deliver(payload: seq<bv8>, cap: nat): (d: seq<bv8>)
    ensures |d| <= cap && d <= payload
    ensures |payload| <= cap ==> d == payload
  {
    if |payload| <= cap then payload else payload[..cap]
  }

  /** The calls of a read: every receive is issued with the full ceiling as its capacity and
      right after a check of the shutdown flag that found it clear; every wait is an
      unbounded wait for readability; a connect follows a receive-with-sender directly. */
  predicate ReadCallsOk(trace: seq<Action>, cap: nat)
  {
    forall i :: 0 <= i < |trace| ==> CallOk(trace, i, cap)
  }

  /** The condition ReadCallsOk places on the call at position `i`. */
  predicate CallOk(trace: seq<Action>, i: nat, cap: nat)
    requires i < |trace|
  {
    && ((trace[i].Recv? || trace[i].RecvFrom?) ==> 0 < i && trace[i - 1] == CheckShutdown(false) && trace[i].capacity == cap)
    && (trace[i].Wait? ==> trace[i] == Wait(Readable, Infinite))
    && (trace[i].Connect? ==> 0 < i && trace[i - 1].RecvFrom?)
  }

  lemma WaitCallsOk(tail: seq<Action>, cap: nat)
    requires ReadCallsOk(tail, cap)
    ensures ReadCallsOk([Wait(Readable, Infinite)] + tail, cap)
  {
    var trace := [Wait(Readable, Infinite)] + tail;
    forall i | 0 <= i < |trace|
      ensures CallOk(trace, i, cap)
    {
      if i >= 1 {
        assert trace[i] == tail[i - 1] && CallOk(tail, i - 1, cap);
        if i >= 2 {
          assert trace[i - 1] == tail[i - 2];
        }
      }
    }
  }

  lemma AttemptCallsOk(call: Action, tail: seq<Action>, cap: nat)
    requires call == Recv(cap) || call == RecvFrom(cap)
    requires ReadCallsOk(tail, cap) || (call.RecvFrom? && |tail| == 1 && tail[0].Connect?)
    ensures ReadCallsOk([CheckShutdown(false), call] + tail, cap)
  {
    var trace := [CheckShutdown(false), call] + tail;
    forall i | 0 <= i < |trace|
      ensures CallOk(trace, i, cap)
    {
      if i >= 2 {
        assert trace[i] == tail[i - 2];
        if ReadCallsOk(tail, cap) {
          assert CallOk(tail, i - 2, cap);
          if i >= 3 {
            assert trace[i - 1] == tail[i - 3];
          }
        }
      }
    }
  }

  /** A read changes at most the pending-connect and shutdown flags; pending connect only
      goes from true to false and the shutdown flag only from false to true. */
  predicate StateStep(t: Transceiver, u: Transceiver)
  {
    && u.(pendingConnect := t.pendingConnect, shutdownRequested := t.shutdownRequested) == t
    && (u.pendingConnect ==> t.pendingConnect)
    && (t.shutdownRequested ==> u.shutdownRequested)
  }

  predicate NoWaits(trace: seq<Action>)
  {
    forall i :: 0 <= i < |trace| ==> !trace[i].Wait?
  }

  /** Label `repeat`: check the shutdown flag, then one non-blocking receive (with the
      sender's address while a connect is pending). */
  function ReceiveAttempt(t: Transceiver, cap: nat, timeout: int, attempts: seq<Attempt>, waits: seq<WaitReply>): (r: ReadRun)
    decreases |attempts| + |waits|
    ensures ReadCallsOk(r.trace, cap)
    ensures |r.trace| > 0 && r.trace[0].CheckShutdown?
    ensures StateStep(t, r.state)
    ensures r.state.shutdownRequested <==> r.outcome == ReadRaised(ConnectionLost)
    ensures r.state.pendingConnect != t.pendingConnect ==> r.outcome.Got? && r.trace[|r.trace| - 1].Connect?
    ensures r.outcome.Got? && t.pendingConnect ==> !r.state.pendingConnect
    ensures r.outcome.Got? ==> |r.outcome.data| <= cap
    ensures r.outcome != ReadRaised(MemoryLimit)
    ensures timeout == 0 ==> NoWaits(r.trace)
    ensures !t.shutdownRequested && attempts != [] && !attempts[0].shutdownBefore ==>
      && (attempts[0].reply == RecvTruncated ==> r.outcome == ReadRaised(DatagramLimit))
      && (attempts[0].reply.RecvFailed? ==> r.outcome == ReadRaised(SocketError(attempts[0].reply.code)))
      && (attempts[0].reply == RecvWouldBlock && timeout == 0 ==> r.outcome == ReadNotReady && r.state == t)
      && (attempts[0].reply.Datagram? && (!t.pendingConnect || attempts[0].connect == Connected) ==>
            r.outcome == Got(Deliver(attempts[0].reply.payload, cap)))
      && (attempts[0].reply.Datagram? && t.pendingConnect && attempts[0].connect.ConnectFailed? ==>
            r.outcome == ReadRaised(ConnectError(attempts[0].connect.code)))
      && (attempts[0].reply.Datagram? && t.pendingConnect ==>
            r.trace == [CheckShutdown(false), RecvFrom(cap), Connect(attempts[0].reply.sender)])
  {
    var flag := t.shutdownRequested || (attempts != [] && attempts[0].shutdownBefore);
    if flag then ReadRun(ReadRaised(ConnectionLost), t.(shutdownRequested := true), [CheckShutdown(true)])
    else if attempts == [] then ReadRun(ReadUnfinished, t, [CheckShutdown(false)])
    else
      var a := attempts[0];
      var call := if t.pendingConnect then RecvFrom(cap) else Recv(cap);
      var tail := match a.reply
        case Datagram(payload, sender) =>
          if t.pendingConnect then
            match a.connect
            case Connected => ReadRun(Got(Deliver(payload, cap)), t.(pendingConnect := false), [Connect(sender)])
            case ConnectFailed(code) => ReadRun(ReadRaised(ConnectError(code)), t, [Connect(sender)])
          else ReadRun(Got(Deliver(payload, cap)), t, [])
        case RecvInterrupted => ReceiveAttempt(t, cap, timeout, attempts[1..], waits)
        case RecvWouldBlock =>
          if timeout == 0 then ReadRun(ReadNotReady, t, []) else AwaitReadable(t, cap, timeout, attempts[1..], waits)
        case RecvTruncated => ReadRun(ReadRaised(DatagramLimit), t, [])
        case RecvFailed(code) => ReadRun(ReadRaised(SocketError(code)), t, []);
      AttemptCallsOk(call, tail.trace, cap);
      ReadRun(tail.outcome, tail.state, [CheckShutdown(false), call] + tail.trace)
  }

  /** Label `repeatSelect`: an unbounded wait for readability, whatever the caller's
      timeout; an interrupted wait waits again, readiness goes back to the flag check. */
  function AwaitReadable(t: Transceiver, cap: nat, timeout: int, attempts: seq<Attempt>, waits: seq<WaitReply>): (r: ReadRun)
    requires !t.shutdownRequested
    decreases |attempts| + |waits|
    ensures ReadCallsOk(r.trace, cap)
    ensures |r.trace| > 0 && r.trace[0] == Wait(Readable, Infinite)
    ensures StateStep(t, r.state)
    ensures r.state.shutdownRequested <==> r.outcome == ReadRaised(ConnectionLost)
    ensures r.state.pendingConnect != t.pendingConnect ==> r.outcome.Got? && r.trace[|r.trace| - 1].Connect?
    ensures r.outcome.Got? && t.pendingConnect ==> !r.state.pendingConnect
    ensures r.outcome.Got? ==> |r.outcome.data| <= cap
    ensures r.outcome != ReadRaised(MemoryLimit)
    ensures waits != [] && waits[0] == WaitExpired ==> r.outcome == ReadRaised(Timeout)
    ensures waits != [] && waits[0].WaitFailed? ==> r.outcome == ReadRaised(SocketError(waits[0].code))
  {
    var poll := Wait(Readable, Infinite);
    if waits == [] then ReadRun(ReadUnfinished, t, [poll])
    else
      var tail := match waits[0]
        case WaitInterrupted => AwaitReadable(t, cap, timeout, attempts, waits[1..])
        case WaitFailed(code) => ReadRun(ReadRaised(SocketError(code)), t, [])
        case WaitExpired => ReadRun(ReadRaised(Timeout), t, [])
        case WaitReady => ReceiveAttempt(t, cap, timeout, attempts, waits[1..]);
      WaitCallsOk(tail.trace, cap);
      ReadRun(tail.outcome, tail.state, [poll] + tail.trace)
  }

  /** read(buf, timeout) on an open transceiver, for a caller buffer of `requested` bytes.
      A buffer larger than the receive ceiling raises DatagramLimit before any call;
      otherwise the buffer is sized to the ceiling and the receive loop runs. */
  function Read(t: Transceiver, requested: nat, timeout: int, attempts: seq<Attempt>, waits: seq<WaitReply>): (r: ReadRun)
    requires t.handle.Open?
    ensures requested > Ceiling(t.rcvSize) ==> r == ReadRun(ReadRaised(DatagramLimit), t, [])
    ensures requested <= Ceiling(t.rcvSize) ==>
      && ReadCallsOk(r.trace, Ceiling(t.rcvSize))
      && |r.trace| > 0 && r.trace[0].CheckShutdown?
    ensures StateStep(t, r.state)
    ensures r.state.handle == t.handle
    ensures requested <= Ceiling(t.rcvSize) ==>
      (r.state.shutdownRequested <==> r.outcome == ReadRaised(ConnectionLost))
    ensures t.shutdownRequested && requested <= Ceiling(t.rcvSize) ==>
      r == ReadRun(ReadRaised(ConnectionLost), t, [CheckShutdown(true)])
    ensures r.state.pendingConnect != t.pendingConnect ==> r.outcome.Got?
    ensures r.outcome.Got? ==> |r.outcome.data| <= Ceiling(t.rcvSize) && !r.state.pendingConnect
    ensures timeout == 0 ==> NoWaits(r.trace)
  {
    var cap := Ceiling(t.rcvSize);
    if cap < requested then ReadRun(ReadRaised(DatagramLimit), t, [])
    else ReceiveAttempt(t, cap, timeout, attempts, waits)
  }

  /** No Timeout without an expired wait. Because every wait of a read is unbounded, an OS
      that never reports expiry of an unbounded wait never makes a read time out, whatever
      the caller's timeout. */
  lemma {:induction false} ReadNeverTimesOut(t: Transceiver, requested: nat, timeout: int, attempts: seq<Attempt>, waits: seq<WaitReply>)
    requires t.handle.Open?
    requires forall i :: 0 <= i < |waits| ==> waits[i] != WaitExpired
    ensures Read(t, requested, timeout, attempts, waits).outcome != ReadRaised(Timeout)
  {
    if requested <= Ceiling(t.rcvSize) {
      AttemptNeverTimesOut(t, Ceiling(t.rcvSize), timeout, attempts, waits);
    }
  }

  lemma {:induction false} AttemptNeverTimesOut(t: Transceiver, cap: nat, timeout: int, attempts: seq<Attempt>, waits: seq<WaitReply>)
    requires forall i :: 0 <= i < |waits| ==> waits[i] != WaitExpired
    decreases |attempts| + |waits|, 1
    ensures ReceiveAttempt(t, cap, timeout, attempts, waits).outcome != ReadRaised(Timeout)
  {
    var flag := t.shutdownRequested || (attempts != [] && attempts[0].shutdownBefore);
    if !flag && attempts != [] {
      match attempts[0].reply
      case RecvInterrupted => AttemptNeverTimesOut(t, cap, timeout, attempts[1..], waits);
      case RecvWouldBlock =>
        if timeout != 0 {
          AwaitNeverTimesOut(t, cap, timeout, attempts[1..], waits);
        }
      case _ =>
    }
  }

  lemma {:induction false} AwaitNeverTimesOut(t: Transceiver, cap: nat, timeout: int, attempts: seq<Attempt>, waits: seq<WaitReply>)
    requires !t.shutdownRequested
    requires forall i :: 0 <= i < |waits| ==> waits[i] != WaitExpired
    decreases |attempts| + |waits|, 0
    ensures AwaitReadable(t, cap, timeout, attempts, waits).outcome != ReadRaised(Timeout)
  {
    if waits != [] {
      assert waits[0] != WaitExpired;
      match waits[0]
      case WaitInterrupted => AwaitNeverTimesOut(t, cap, timeout, attempts, waits[1..]);
      case WaitReady => AttemptNeverTimesOut(t, cap, timeout, attempts, waits[1..]);
      case _ =>
    }
  }

  /** `k` attempts in a row that each find the flag clear and are interrupted. */
  function InterruptedAttempts(k: nat, connect: ConnectReply): (s: seq<Attempt>)
    ensures |s| == k
    ensures forall i :: 0 <= i < k ==> s[i] == Attempt(false, RecvInterrupted, connect)
  {
    if k == 0 then [] else [Attempt(false, RecvInterrupted, connect)] + InterruptedAttempts(k - 1, connect)
  }

  /** Interrupted receives are retried and never surfaced: with no shutdown arriving in
      between, any number of them in front of the replies leaves the outcome and the final
      state as they were, and only adds a flag check and a receive for each. */
  lemma {:induction false} InterruptedReceivesAbsorbed(t: Transceiver, requested: nat, timeout: int, k: nat, connect: ConnectReply, attempts: seq<Attempt>, waits: seq<WaitReply>)
    requires t.handle.Open?
    ensures var r0 := Read(t, requested, timeout, attempts, waits);
      var r1 := Read(t, requested, timeout, InterruptedAttempts(k, connect) + attempts, waits);
      && r1.outcome == r0.outcome
      && r1.state == r0.state
      && (requested <= Ceiling(t.rcvSize) && !t.shutdownRequested ==> |r1.trace| == |r0.trace| + 2 * k)
  {
    if requested <= Ceiling(t.rcvSize) {
      if t.shutdownRequested {
        assert Read(t, requested, timeout, InterruptedAttempts(k, connect) + attempts, waits)
          == ReadRun(ReadRaised(ConnectionLost), t, [CheckShutdown(true)]);
      } else {
        AttemptInterruptionsAbsorbed(t, Ceiling(t.rcvSize), timeout, k, connect, attempts, waits);
      }
    }
  }

  lemma {:induction false} AttemptInterruptionsAbsorbed(t: Transceiver, cap: nat, timeout: int, k: nat, connect: ConnectReply, attempts: seq<Attempt>, waits: seq<WaitReply>)
    requires !t.shutdownRequested
    ensures var r0 := ReceiveAttempt(t, cap, timeout, attempts, waits);
      var r1 := ReceiveAttempt(t, cap, timeout, InterruptedAttempts(k, connect) + attempts, waits);
      r1.outcome == r0.outcome && r1.state == r0.state && |r1.trace| == |r0.trace| + 2 * k &&
      r1.trace[2 * k..] == r0.trace
  {
    if k > 0 {
      var s := InterruptedAttempts(k, connect) + attempts;
      assert s[0] == Attempt(false, RecvInterrupted, connect);
      assert s[1..] == InterruptedAttempts(k - 1, connect) + attempts;
      AttemptInterruptionsAbsorbed(t, cap, timeout, k - 1, connect, attempts, waits);
    } else {
      assert InterruptedAttempts(k, connect) + attempts == attempts;
    }
  }

  /** Interrupted receives are retried and the first attempt that is not decides the read,
      whatever the timeout: a shutdown arriving before it raises ConnectionLost; a
      truncated datagram raises DatagramLimit; any other receive error raises
      SocketException with its code; would-block returns false with timeout 0 and otherwise
      hands over to the wait on the remaining replies; a datagram is returned (after the
      connect to its sender, when one is pending, which ends the calls), unless that
      connect fails. */
  lemma ReadFirstReplyDecides(t: Transceiver, requested: nat, timeout: int, k: nat, c: ConnectReply, a: Attempt, attempts: seq<Attempt>, waits: seq<WaitReply>)
    requires t.handle.Open? && !t.shutdownRequested
    requires requested <= Ceiling(t.rcvSize)
    ensures var r := Read(t, requested, timeout, InterruptedAttempts(k, c) + [a] + attempts, waits);
      && (a.shutdownBefore ==> r.outcome == ReadRaised(ConnectionLost))
      && (!a.shutdownBefore && a.reply == RecvTruncated ==> r.outcome == ReadRaised(DatagramLimit))
      && (!a.shutdownBefore && a.reply.RecvFailed? ==> r.outcome == ReadRaised(SocketError(a.reply.code)))
      && (!a.shutdownBefore && a.reply == RecvWouldBlock && timeout == 0 ==> r.outcome == ReadNotReady && r.state == t)
      && (!a.shutdownBefore && a.reply == RecvWouldBlock && timeout != 0 ==>
            r.outcome == AwaitReadable(t, Ceiling(t.rcvSize), timeout, attempts, waits).outcome)
      && (!a.shutdownBefore && a.reply.Datagram? && (!t.pendingConnect || a.connect == Connected) ==>
            r.outcome == Got(Deliver(a.reply.payload, Ceiling(t.rcvSize))) && !r.state.pendingConnect)
      && (!a.shutdownBefore && a.reply.Datagram? && t.pendingConnect && a.connect.ConnectFailed? ==>
            r.outcome == ReadRaised(ConnectError(a.connect.code)))
      && (!a.shutdownBefore && a.reply.Datagram? && t.pendingConnect ==>
            |r.trace| >= 2 && r.trace[|r.trace| - 2] == RecvFrom(Ceiling(t.rcvSize)) &&
            r.trace[|r.trace| - 1] == Connect(a.reply.sender))
  {
    AttemptInterruptionsAbsorbed(t, Ceiling(t.rcvSize), timeout, k, c, [a] + attempts, waits);
    assert InterruptedAttempts(k, c) + [a] + attempts == InterruptedAttempts(k, c) + ([a] + attempts);
    assert ([a] + attempts)[1..] == attempts;
  }

  /** A read within the ceiling whose receive would block, with a timeout other than 0 and
      after any number of interrupted receives, waits for readability; after any number of
      interrupted waits, an expired wait raises Timeout, a failed wait raises
      SocketException with its code, and readiness starts the read over on the remaining
      replies. */
  lemma ReadBlockedThenWait(t: Transceiver, requested: nat, timeout: int, k: nat, c: ConnectReply, m: nat, w: WaitReply, attempts: seq<Attempt>, waits: seq<WaitReply>)
    requires t.handle.Open? && !t.shutdownRequested
    requires requested <= Ceiling(t.rcvSize)
    requires timeout != 0
    ensures var r := Read(t, requested, timeout, InterruptedAttempts(k, c) + [Attempt(false, RecvWouldBlock, c)] + attempts, InterruptedWaits(m) + [w] + waits);
      && (w == WaitExpired ==> r.outcome == ReadRaised(Timeout))
      && (w.WaitFailed? ==> r.outcome == ReadRaised(SocketError(w.code)))
      && (w == WaitReady ==> r.outcome == Read(t, requested, timeout, attempts, waits).outcome)
  {
    var cap := Ceiling(t.rcvSize);
    ReadFirstReplyDecides(t, requested, timeout, k, c, Attempt(false, RecvWouldBlock, c), attempts, InterruptedWaits(m) + [w] + waits);
    ReadableWaitInterruptions(t, cap, timeout, m, attempts, [w] + waits);
    assert InterruptedWaits(m) + [w] + waits == InterruptedWaits(m) + ([w] + waits);
    assert ([w] + waits)[1..] == waits;
  }

  /** Interrupted waits are waited again and never surfaced: any number of them in front of
      the wait replies leaves the outcome and the final state as they were; either the read
      never waits and nothing changes, or it issues one more wait for each interruption. */
  lemma InterruptedReadableWaitsAbsorbed(t: Transceiver, requested: nat, timeout: int, k: nat, attempts: seq<Attempt>, waits: seq<WaitReply>)
    requires t.handle.Open?
    ensures var r0 := Read(t, requested, timeout, attempts, waits);
      var r1 := Read(t, requested, timeout, attempts, InterruptedWaits(k) + waits);
      && r1.outcome == r0.outcome
      && r1.state == r0.state
      && (r1 == r0 || |r1.trace| == |r0.trace| + k)
  {
    if requested <= Ceiling(t.rcvSize) {
      ReceiveAttemptWaitInterruptions(t, Ceiling(t.rcvSize), timeout, k, attempts, waits);
    }
  }

  lemma {:induction false} ReceiveAttemptWaitInterruptions(t: Transceiver, cap: nat, timeout: int, k: nat, attempts: seq<Attempt>, waits: seq<WaitReply>)
    decreases |attempts|
    ensures var r0 := ReceiveAttempt(t, cap, timeout, attempts, waits);
      var r1 := ReceiveAttempt(t, cap, timeout, attempts, InterruptedWaits(k) + waits);
      && r1.outcome == r0.outcome
      && r1.state == r0.state
      && (r1 == r0 || |r1.trace| == |r0.trace| + k)
  {
    var flag := t.shutdownRequested || (attempts != [] && attempts[0].shutdownBefore);
    if !flag && attempts != [] {
      match attempts[0].reply
      case RecvInterrupted => ReceiveAttemptWaitInterruptions(t, cap, timeout, k, attempts[1..], waits);
      case RecvWouldBlock =>
        if timeout != 0 {
          ReadableWaitInterruptions(t, cap, timeout, k, attempts[1..], waits);
        }
      case _ =>
    }
  }

  lemma {:induction false} ReadableWaitInterruptions(t: Transceiver, cap: nat, timeout: int, k: nat, attempts: seq<Attempt>, waits: seq<WaitReply>)
    requires !t.shutdownRequested
    ensures var r0 := AwaitReadable(t, cap, timeout, attempts, waits);
      var r1 := AwaitReadable(t, cap, timeout, attempts, InterruptedWaits(k) + waits);
      r1.outcome == r0.outcome && r1.state == r0.state && |r1.trace| == |r0.trace| + k
  {
    if k > 0 {
      var w := InterruptedWaits(k) + waits;
      assert w[0] == WaitInterrupted;
      assert w[1..] == InterruptedWaits(k - 1) + waits;
      ReadableWaitInterruptions(t, cap, timeout, k - 1, attempts, waits);
    } else {
      assert InterruptedWaits(k) + waits == waits;
    }
  }
}

=== FILE: state.dfy ===
/** The transceiver's own state and the lifecycle calls: fd, close, shutdownReadWrite and
    the destructor's precondition. */
module UdpState {
  import opened UdpAddress

  /** The socket handle: an open descriptor, or INVALID_SOCKET. */
  datatype Handle = Open(fd: nat) | Invalid

  /** Per-instance state. `pendingConnect` is the source's `_connect` (connect to the first
      sender), `rcvSize`/`sndSize` the negotiated OS buffer sizes, `shutdownRequested` the
      flag a concurrent shutdownReadWrite sets. */
  datatype Transceiver = Transceiver(
    handle: Handle,
    incoming: bool,
    addr: Addr,
    pendingConnect: bool,
    mcastServer: bool,
    rcvSize: int,
    sndSize: int,
    shutdownRequested: bool)

  /** The three phases of a transceiver's life: usable, shut down for reading and writing
      (handle still open), and closed. */
  datatype Phase = Active | ShuttingDown | Closed

  function PhaseOf(t: Transceiver): Phase
  {
    if t.handle.Invalid? then Closed
    else if t.shutdownRequested then ShuttingDown
    else Active
  }

  /** Position of a phase in the one-way order Active, ShuttingDown, Closed. */
  function Rank(p: Phase): nat
  {
    match p
    case Active => 0
    case ShuttingDown => 1
    case Closed => 2
  }

  /** fd(): only an open transceiver hands out its descriptor. */
  function Fd(t: Transceiver): (fd: nat)
    requires t.handle.Open?
    ensures t.handle == Open(fd)
  {
    t.handle.fd
  }

  /** close(): releases an open handle; nothing else about the transceiver changes. */
  function Close(t: Transceiver): (r: Transceiver)
    requires t.handle.Open?
    ensures PhaseOf(r) == Closed && Rank(PhaseOf(t)) < Rank(PhaseOf(r))
    ensures r.(handle := t.handle) == t
  {
    t.(handle := Invalid)
  }

  /** The destructor's precondition: the handle has already been released. */
  predicate MayDestroy(t: Transceiver)
  {
    t.handle.Invalid?
  }

  /** shutdownReadWrite(): sets the shutdown flag on an open transceiver; the handle stays
      open and no other field changes. The OS-level shutdown and the decoy wake-up packet
      are effects outside this state. */
  function ShutdownReadWrite(t: Transceiver): (r: Transceiver)
    requires t.handle.Open?
    ensures PhaseOf(r) == ShuttingDown && Rank(PhaseOf(t)) <= Rank(PhaseOf(r))
    ensures r.(shutdownRequested := t.shutdownRequested) == t
  {
    t.(shutdownRequested := true)
  }

  /** Closing is what makes destruction legal: an open transceiver may not be destroyed,
      and after close it may. A second shutdown request changes nothing. */
  lemma CloseEnablesDestroy(t: Transceiver)
    requires t.handle.Open?
    ensures !MayDestroy(t) && MayDestroy(Close(t))
    ensures ShutdownReadWrite(ShutdownReadWrite(t)) == ShutdownReadWrite(t)
  {
  }
}

=== FILE: syscalls.dfy ===
/** The OS calls the transceiver issues, the replies the OS may give to them, and the
    errors the transceiver raises. Every OS call is abstract: the model records that it
    was issued and consumes a reply from a finite sequence supplied by the caller. */
module UdpSyscalls {
  import opened UdpAddress

  /** Which OS buffer a size query or size change is about. */
  datatype Direction = ReceiveBuffer | SendBuffer

  /** Which readiness a wait asks for. */
  datatype Readiness = Readable | Writable

  /** How long a wait may block: forever, or a number of milliseconds. */
  datatype WaitLimit = Infinite | Millis(ms: nat)

  /** Where a receiver binds: the resolved address itself, or the wildcard address on a port
      (resolved by the address helper, which is not part of this model). */
  datatype BindTarget = BindTo(addr: Addr) | BindWildcard(port: Port)

  /** One call issued by the transceiver, in issue order. `CheckShutdown` is the locked
      read of the shutdown flag, recorded with the value it saw. */
  datatype Action =
    | ResolveLocal(host: string, port: int)
    | CreateSocket(v4: bool)
    | GetBufSize(dir: Direction)
    | SetBufSize(dir: Direction, size: int)
    | SetNonBlocking
    | Connect(peer: Addr)
    | SetMcastInterface(iface: string, v4: bool)
    | SetMcastTtl(ttl: int, v4: bool)
    | SetReuseAddress
    | Bind(target: BindTarget)
    | JoinGroup(group: Addr, iface: string)
    | SendDatagram(payload: seq<bv8>)
    | Wait(ready: Readiness, limit: WaitLimit)
    | CheckShutdown(flagSet: bool)
    | Recv(capacity: nat)
    | RecvFrom(capacity: nat)

  /** Reply to a non-blocking send: the byte count sent, or an error the source
      distinguishes (interrupted, would block) or does not (any other code). */
  datatype SendReply = Sent(count: nat) | SendInterrupted | SendWouldBlock | SendFailed(code: int)

  /** Reply to a non-blocking receive: a datagram (its full payload and its sender), or an
      error: interrupted, would block, truncated (the platform reported an oversize
      datagram), or any other code. */
  datatype RecvReply =
    | Datagram(payload: seq<bv8>, sender: Addr)
    | RecvInterrupted
    | RecvWouldBlock
    | RecvTruncated
    | RecvFailed(code: int)

  /** Reply to poll/select: an error (interrupted or other), 0 (the limit expired) or ready. */
  datatype WaitReply = WaitReady | WaitExpired | WaitInterrupted | WaitFailed(code: int)

  /** `k` interrupted waits in a row. */
  function InterruptedWaits(k: nat): (s: seq<WaitReply>)
    ensures |s| == k && forall i :: 0 <= i < k ==> s[i] == WaitInterrupted
  {
    if k == 0 then [] else [WaitInterrupted] + InterruptedWaits(k - 1)
  }

  /** Reply to the connect a receiver issues towards its first sender. */
  datatype ConnectReply = Connected | ConnectFailed(code: int)

  /** The exceptions the transceiver raises. `ConnectError` is whatever the connect helper
      raises; that helper is not part of this model. */
  datatype Failure =
    | DatagramLimit
    | MemoryLimit
    | ConnectionLost
    | Timeout
    | SocketError(code: int)
    | ConnectError(code: int)

  /** The `struct timeval` select is given for a non-negative millisecond timeout:
      whole seconds and the remaining microseconds. */
  function Timeval(ms: nat): (tv: (nat, nat))
    ensures tv.0 * 1_000_000 + tv.1 == ms * 1000
    ensures tv.1 < 1_000_000
  {
    var sec := ms / 1000;
    (sec, (ms - sec * 1000) * 1000)
  }
}

=== FILE: wrappers.dfy ===
/** The optional-value type used for configuration lookups and failure points. */
module Wrappers {

  datatype Option<+T> = None | Some(value: T) {

    /** The carried value, or `default` when there is none. */
    function GetOr(default: T): (r: T)
      ensures Some? ==> r == value
      ensures None? ==> r == default
    {
      match this
      case Some(v) => v
      case None => default
    }
  }
}

=== FILE: write.dfy ===
/** write() and checkSendSize(): the send ceiling and the send/wait retry loop. The two
    labels of the source's loop (`repeat` and `repeatSelect`) are the two mutually
    recursive functions SendAttempt and AwaitWritable. */
module DatagramWrite {
  import opened Wrappers
  import opened UdpLimits
  import opened UdpSyscalls
  import opened UdpState

  /** How a write call ends: true with the whole buffer consumed, false (not ready), an
      exception, the assertion on the sent count failing, or still running when the
      supplied replies run out. */
  datatype WriteOutcome =
    | Written(consumed: nat)
    | WriteNotReady
    | WriteRaised(failure: Failure)
    | SendCountMismatch
    | WriteUnfinished

  /** The outcome, the calls issued, and how many send and wait replies were consumed. */
  datatype WriteRun = WriteRun(outcome: WriteOutcome, trace: seq<Action>, sendsUsed: nat, waitsUsed: nat)

  /** The wait limit poll/select is given for a write timeout: a negative timeout waits
      forever. */
  function WriteWaitLimit(timeout: int): WaitLimit
  {
    if timeout < 0 then Infinite else Millis(timeout)
  }

  /** Every call a write issues is a send of the whole buffer or a wait for writability
      with the caller's timeout. */
  predicate WriteCallsOk(trace: seq<Action>, buf: seq<bv8>, timeout: int)
  {
    forall i :: 0 <= i < |trace| ==>
      trace[i] == SendDatagram(buf) || trace[i] == Wait(Writable, WriteWaitLimit(timeout))
  }

  function Prepend(x: Action, r: WriteRun, sent: nat, waited: nat): (q: WriteRun)
  {
    WriteRun(r.outcome, [x] + r.trace, r.sendsUsed + sent, r.waitsUsed + waited)
  }

  /** Label `repeat`: one non-blocking send of the whole buffer. */
  function SendAttempt(buf: seq<bv8>, timeout: int, sends: seq<SendReply>, waits: seq<WaitReply>): (r: WriteRun)
    decreases |sends| + |waits|
    ensures WriteCallsOk(r.trace, buf, timeout)
    ensures r.sendsUsed <= |sends| && r.waitsUsed <= |waits|
    ensures r.outcome.Written? ==> r.outcome.consumed == |buf|
    ensures r.outcome.Written? ==> r.sendsUsed > 0 && sends[r.sendsUsed - 1] == Sent(|buf|)
    ensures r.outcome != WriteRaised(DatagramLimit) && r.outcome != WriteRaised(MemoryLimit)
    ensures r.outcome != WriteRaised(ConnectionLost)
    ensures timeout == 0 ==> r.outcome != WriteRaised(Timeout) && r.waitsUsed == 0
    ensures r.outcome == WriteRaised(Timeout) ==> r.waitsUsed > 0 && waits[r.waitsUsed - 1] == WaitExpired
    ensures sends != [] && sends[0] == Sent(|buf|) ==> r.outcome == Written(|buf|)
    ensures sends != [] && sends[0].SendFailed? ==> r.outcome == WriteRaised(SocketError(sends[0].code))
  {
    if sends == [] then WriteRun(WriteUnfinished, [SendDatagram(buf)], 0, 0)
    else
      var tail := match sends[0]
        case Sent(n) =>
          if n == |buf| then WriteRun(Written(|buf|), [], 0, 0) else WriteRun(SendCountMismatch, [], 0, 0)
        case SendInterrupted => SendAttempt(buf, timeout, sends[1..], waits)
        case SendWouldBlock => AwaitWritable(buf, timeout, sends[1..], waits)
        case SendFailed(code) => WriteRun(WriteRaised(SocketError(code)), [], 0, 0);
      Prepend(SendDatagram(buf), tail, 1, 0)
  }

  /** Label `repeatSelect`: return false at once for a zero timeout, otherwise wait for
      writability; an interrupted wait waits again, readiness sends again. */
  function AwaitWritable(buf: seq<bv8>, timeout: int, sends: seq<SendReply>, waits: seq<WaitReply>): (r: WriteRun)
    decreases |sends| + |waits|
    ensures WriteCallsOk(r.trace, buf, timeout)
    ensures r.sendsUsed <= |sends| && r.waitsUsed <= |waits|
    ensures r.outcome.Written? ==> r.outcome.consumed == |buf|
    ensures r.outcome.Written? ==> r.sendsUsed > 0 && sends[r.sendsUsed - 1] == Sent(|buf|)
    ensures r.outcome != WriteRaised(DatagramLimit) && r.outcome != WriteRaised(MemoryLimit)
    ensures r.outcome != WriteRaised(ConnectionLost)
    ensures timeout == 0 ==> r == WriteRun(WriteNotReady, [], 0, 0)
    ensures r.outcome == WriteRaised(Timeout) ==> r.waitsUsed > 0 && waits[r.waitsUsed - 1] == WaitExpired
    ensures timeout != 0 ==> |r.trace| > 0 && r.trace[0] == Wait(Writable, WriteWaitLimit(timeout))
    ensures timeout != 0 && waits != [] && waits[0] == WaitExpired ==> r.outcome == WriteRaised(Timeout)
    ensures timeout != 0 && waits != [] && waits[0].WaitFailed? ==> r.outcome == WriteRaised(SocketError(waits[0].code))
  {
    if timeout == 0 then WriteRun(WriteNotReady, [], 0, 0)
    else
      var poll := Wait(Writable, WriteWaitLimit(timeout));
      if waits == [] then WriteRun(WriteUnfinished, [poll], 0, 0)
      else
        var tail := match waits[0]
          case WaitInterrupted => AwaitWritable(buf, timeout, sends, waits[1..])
          case WaitFailed(code) => WriteRun(WriteRaised(SocketError(code)), [], 0, 0)
          case WaitExpired => WriteRun(WriteRaised(Timeout), [], 0, 0)
          case WaitReady => SendAttempt(buf, timeout, sends, waits[1..]);
        Prepend(poll, tail, 0, 1)
  }

  /** write(buf, timeout) on an open transceiver. A buffer larger than the send ceiling
      raises DatagramLimit before any call is issued; otherwise the send loop runs. */
  function Write(t: Transceiver, buf: seq<bv8>, timeout: int, sends: seq<SendReply>, waits: seq<WaitReply>): (r: WriteRun)
    requires t.handle.Open?
    ensures r.outcome == WriteRaised(DatagramLimit) <==> ExceedsCeiling(t.sndSize, |buf|)
    ensures r.outcome == WriteRaised(DatagramLimit) ==> r.trace == []
    ensures !ExceedsCeiling(t.sndSize, |buf|) ==> |r.trace| > 0 && r.trace[0] == SendDatagram(buf)
    ensures WriteCallsOk(r.trace, buf, timeout)
    ensures r.outcome.Written? ==> r.outcome.consumed == |buf| && |buf| <= Ceiling(t.sndSize)
    ensures r.outcome.Written? ==> r.trace[|r.trace| - 1] == SendDatagram(buf)
    ensures timeout == 0 ==> forall i :: 0 <= i < |r.trace| ==> !r.trace[i].Wait?
    ensures timeout == 0 ==> r.outcome != WriteRaised(Timeout)
    ensures r.sendsUsed <= |sends| && r.waitsUsed <= |waits|
    ensures r.outcome == WriteRaised(Timeout) ==> r.waitsUsed > 0 && waits[r.waitsUsed - 1] == WaitExpired
  {
    if ExceedsCeiling(t.sndSize, |buf|) then WriteRun(WriteRaised(DatagramLimit), [], 0, 0)
    else
      var r := SendAttempt(buf, timeout, sends, waits);
      WrittenEndsWithSend(buf, timeout, sends, waits);
      NonBlockingNeverWaits(buf, timeout, sends, waits);
      r
  }

  /** A successful send is the last call of the loop. */
  lemma {:induction false} WrittenEndsWithSend(buf: seq<bv8>, timeout: int, sends: seq<SendReply>, waits: seq<WaitReply>)
    decreases |sends| + |waits|, 1
    ensures var r := SendAttempt(buf, timeout, sends, waits);
      r.outcome.Written? ==> |r.trace| > 0 && r.trace[|r.trace| - 1] == SendDatagram(buf)
  {
    if sends != [] {
      match sends[0]
      case SendInterrupted => WrittenEndsWithSend(buf, timeout, sends[1..], waits);
      case SendWouldBlock =>
        if timeout != 0 && waits != [] {
          AwaitWrittenEndsWithSend(buf, timeout, sends[1..], waits);
        }
      case _ =>
    }
  }

  lemma {:induction false} AwaitWrittenEndsWithSend(buf: seq<bv8>, timeout: int, sends: seq<SendReply>, waits: seq<WaitReply>)
    requires timeout != 0 && waits != []
    decreases |sends| + |waits|, 0
    ensures var r := AwaitWritable(buf, timeout, sends, waits);
      r.outcome.Written? ==> |r.trace| > 0 && r.trace[|r.trace| - 1] == SendDatagram(buf)
  {
    match waits[0]
    case WaitInterrupted =>
      if waits[1..] != [] {
        AwaitWrittenEndsWithSend(buf, timeout, sends, waits[1..]);
      }
    case WaitReady => WrittenEndsWithSend(buf, timeout, sends, waits[1..]);
    case _ =>
  }

  /** With a zero timeout the loop never waits: every call it issues is a send. */
  lemma {:induction false} NonBlockingNeverWaits(buf: seq<bv8>, timeout: int, sends: seq<SendReply>, waits: seq<WaitReply>)
    decreases |sends|
    ensures var r := SendAttempt(buf, timeout, sends, waits);
      timeout == 0 ==> forall i :: 0 <= i < |r.trace| ==> r.trace[i] == SendDatagram(buf)
  {
    if timeout == 0 && sends != [] && sends[0].SendInterrupted? {
      NonBlockingNeverWaits(buf, timeout, sends[1..], waits);
      assert SendAttempt(buf, timeout, sends, waits).trace
        == [SendDatagram(buf)] + SendAttempt(buf, timeout, sends[1..], waits).trace;
    }
  }

  /** The first send reply that is not an interruption decides a non-blocking write:
      a send of the whole buffer returns true, would-block returns false, any other error
      raises SocketException. */
  function FirstDecisive(sends: seq<SendReply>): (k: nat)
    ensures k <= |sends|
    ensures forall i :: 0 <= i < k ==> sends[i] == SendInterrupted
    ensures k < |sends| ==> sends[k] != SendInterrupted
  {
    if sends == [] || sends[0] != SendInterrupted then 0 else 1 + FirstDecisive(sends[1..])
  }

  /** What the decisive send reply makes of a write: a send of the whole buffer returns
      true, a short count fails the assertion on it, would-block returns false (once the
      write does not wait), any other error raises SocketException. */
  function SendOutcome(buf: seq<bv8>, reply: SendReply): WriteOutcome
  {
    match reply
    case Sent(n) => if n == |buf| then Written(|buf|) else SendCountMismatch
    case SendInterrupted => WriteUnfinished
    case SendWouldBlock => WriteNotReady
    case SendFailed(code) => WriteRaised(SocketError(code))
  }

  /** Whatever the timeout, interrupted sends are retried and the first other send reply
      decides the write: any reply but would-block gives its SendOutcome after that one
      send, and would-block hands over to the wait on the remaining replies. */
  lemma WriteFirstReplyDecides(t: Transceiver, buf: seq<bv8>, timeout: int, sends: seq<SendReply>, waits: seq<WaitReply>)
    requires t.handle.Open?
    requires !ExceedsCeiling(t.sndSize, |buf|)
    ensures var r := Write(t, buf, timeout, sends, waits);
      var k := FirstDecisive(sends);
      && (k < |sends| && sends[k] != SendWouldBlock ==>
            r.outcome == SendOutcome(buf, sends[k]) && r.sendsUsed == k + 1 && r.waitsUsed == 0)
      && (k < |sends| && sends[k] == SendWouldBlock ==>
            var w := AwaitWritable(buf, timeout, sends[k + 1..], waits);
            r.outcome == w.outcome && r.sendsUsed == k + 1 + w.sendsUsed && r.waitsUsed == w.waitsUsed)
      && (k == |sends| ==> r.outcome == WriteUnfinished)
  {
    SendSteps(buf, timeout, sends, waits);
  }

  lemma {:induction false} SendSteps(buf: seq<bv8>, timeout: int, sends: seq<SendReply>, waits: seq<WaitReply>)
    decreases |sends|
    ensures var r := SendAttempt(buf, timeout, sends, waits);
      var k := FirstDecisive(sends);
      && (k < |sends| && sends[k] != SendWouldBlock ==>
            r.outcome == SendOutcome(buf, sends[k]) && r.sendsUsed == k + 1 && r.waitsUsed == 0)
      && (k < |sends| && sends[k] == SendWouldBlock ==>
            var w := AwaitWritable(buf, timeout, sends[k + 1..], waits);
            r.outcome == w.outcome && r.sendsUsed == k + 1 + w.sendsUsed && r.waitsUsed == w.waitsUsed)
      && (k == |sends| ==> r.outcome == WriteUnfinished)
  {
    if sends != [] && sends[0] == SendInterrupted {
      SendSteps(buf, timeout, sends[1..], waits);
      var k := FirstDecisive(sends);
      if k < |sends| {
        assert sends[1..][k - 1 + 1..] == sends[k + 1..];
      }
    }
  }

  /** A non-blocking write (timeout 0) within the ceiling retries interruptions silently and
      ends on the first other reply, which alone decides the result; it never waits. */
  lemma NonBlockingWrite(t: Transceiver, buf: seq<bv8>, sends: seq<SendReply>, waits: seq<WaitReply>)
    requires t.handle.Open?
    requires !ExceedsCeiling(t.sndSize, |buf|)
    ensures var r := Write(t, buf, 0, sends, waits);
      var k := FirstDecisive(sends);
      && (k < |sends| ==> r.outcome == SendOutcome(buf, sends[k]) && r.sendsUsed == k + 1)
      && (k == |sends| ==> r.outcome == WriteUnfinished)
      && r.waitsUsed == 0
  {
    WriteFirstReplyDecides(t, buf, 0, sends, waits);
  }

  /** `k` interrupted sends in a row. */
  function Interruptions(k: nat): (s: seq<SendReply>)
    ensures |s| == k && forall i :: 0 <= i < k ==> s[i] == SendInterrupted
  {
    if k == 0 then [] else [SendInterrupted] + Interruptions(k - 1)
  }

  /** Interrupted sends are retried and never surfaced: any number of them in front of the
      replies changes neither the outcome nor the waits consumed, only adds one send each. */
  lemma {:induction false} InterruptedSendsAbsorbed(t: Transceiver, buf: seq<bv8>, timeout: int, k: nat, sends: seq<SendReply>, waits: seq<WaitReply>)
    requires t.handle.Open?
    ensures var r0 := Write(t, buf, timeout, sends, waits);
      var r1 := Write(t, buf, timeout, Interruptions(k) + sends, waits);
      && r1.outcome == r0.outcome
      && r1.waitsUsed == r0.waitsUsed
      && (!ExceedsCeiling(t.sndSize, |buf|) ==> r1.sendsUsed == r0.sendsUsed + k && |r1.trace| == |r0.trace| + k)
  {
    if !ExceedsCeiling(t.sndSize, |buf|) {
      SendInterruptionsAbsorbed(buf, timeout, k, sends, waits);
    }
  }

  lemma {:induction false} SendInterruptionsAbsorbed(buf: seq<bv8>, timeout: int, k: nat, sends: seq<SendReply>, waits: seq<WaitReply>)
    ensures var r0 := SendAttempt(buf, timeout, sends, waits);
      var r1 := SendAttempt(buf, timeout, Interruptions(k) + sends, waits);
      r1.outcome == r0.outcome && r1.waitsUsed == r0.waitsUsed &&
      r1.sendsUsed == r0.sendsUsed + k && |r1.trace| == |r0.trace| + k
  {
    if k > 0 {
      var s := Interruptions(k) + sends;
      assert s[0] == SendInterrupted;
      assert s[1..] == Interruptions(k - 1) + sends;
      SendInterruptionsAbsorbed(buf, timeout, k - 1, sends, waits);
    } else {
      assert Interruptions(k) + sends == sends;
    }
  }

  /** Interrupted waits are waited again and never surfaced: any number of them in front
      of the wait replies leaves the outcome and the sends consumed as they were; either
      the write never waits and nothing changes, or it consumes one more wait reply for
      each interruption. */
  lemma {:induction false} InterruptedWritableWaitsAbsorbed(t: Transceiver, buf: seq<bv8>, timeout: int, k: nat, sends: seq<SendReply>, waits: seq<WaitReply>)
    requires t.handle.Open?
    ensures var r0 := Write(t, buf, timeout, sends, waits);
      var r1 := Write(t, buf, timeout, sends, InterruptedWaits(k) + waits);
      && r1.outcome == r0.outcome
      && r1.sendsUsed == r0.sendsUsed
      && (r1 == r0 || (r1.waitsUsed == r0.waitsUsed + k && |r1.trace| == |r0.trace| + k))
  {
    if !ExceedsCeiling(t.sndSize, |buf|) {
      SendAttemptWaitInterruptions(buf, timeout, k, sends, waits);
    }
  }

  lemma {:induction false} SendAttemptWaitInterruptions(buf: seq<bv8>, timeout: int, k: nat, sends: seq<SendReply>, waits: seq<WaitReply>)
    decreases |sends|
    ensures var r0 := SendAttempt(buf, timeout, sends, waits);
      var r1 := SendAttempt(buf, timeout, sends, InterruptedWaits(k) + waits);
      && r1.outcome == r0.outcome
      && r1.sendsUsed == r0.sendsUsed
      && (r1 == r0 || (r1.waitsUsed == r0.waitsUsed + k && |r1.trace| == |r0.trace| + k))
  {
    if sends != [] {
      match sends[0]
      case SendInterrupted => SendAttemptWaitInterruptions(buf, timeout, k, sends[1..], waits);
      case SendWouldBlock =>
        if timeout != 0 {
          WritableWaitInterruptions(buf, timeout, k, sends[1..], waits);
        }
      case _ =>
    }
  }

  lemma {:induction false} WritableWaitInterruptions(buf: seq<bv8>, timeout: int, k: nat, sends: seq<SendReply>, waits: seq<WaitReply>)
    requires timeout != 0
    ensures var r0 := AwaitWritable(buf, timeout, sends, waits);
      var r1 := AwaitWritable(buf, timeout, sends, InterruptedWaits(k) + waits);
      r1.outcome == r0.outcome && r1.sendsUsed == r0.sendsUsed &&
      r1.waitsUsed == r0.waitsUsed + k && |r1.trace| == |r0.trace| + k
  {
    if k > 0 {
      var w := InterruptedWaits(k) + waits;
      assert w[0] == WaitInterrupted;
      assert w[1..] == InterruptedWaits(k - 1) + waits;
      WritableWaitInterruptions(buf, timeout, k - 1, sends, waits);
    } else {
      assert InterruptedWaits(k) + waits == waits;
    }
  }

  /** A blocking write (timeout other than 0) whose send would block, after any number of
      interrupted sends, waits for writability; after any number of interrupted waits, an
      expired wait raises Timeout, a failed wait raises SocketException with its code, and
      readiness starts the write over on the remaining replies. */
  lemma WriteBlockedThenWait(t: Transceiver, buf: seq<bv8>, timeout: int, j: nat, m: nat, w: WaitReply, sends: seq<SendReply>, waits: seq<WaitReply>)
    requires t.handle.Open?
    requires !ExceedsCeiling(t.sndSize, |buf|)
    requires timeout != 0
    ensures var r := Write(t, buf, timeout, Interruptions(j) + [SendWouldBlock] + sends, InterruptedWaits(m) + [w] + waits);
      && (w == WaitExpired ==> r.outcome == WriteRaised(Timeout))
      && (w.WaitFailed? ==> r.outcome == WriteRaised(SocketError(w.code)))
      && (w == WaitReady ==> r.outcome == Write(t, buf, timeout, sends, waits).outcome)
  {
    var s := Interruptions(j) + [SendWouldBlock] + sends;
    assert s[j] == SendWouldBlock;
    assert FirstDecisive(s) == j;
    assert s[j + 1..] == sends;
    WriteFirstReplyDecides(t, buf, timeout, s, InterruptedWaits(m) + [w] + waits);
    WritableWaitInterruptions(buf, timeout, m, sends, [w] + waits);
    assert InterruptedWaits(m) + [w] + waits == InterruptedWaits(m) + ([w] + waits);
    assert ([w] + waits)[1..] == waits;
  }

  /** checkSendSize(buf, messageSizeMax): MemoryLimit for a buffer above the configured
      message size limit, which is checked first and so wins; DatagramLimit for a buffer
      above the send ceiling; otherwise the buffer may be sent. */
  function CheckSendSize(t: Transceiver, size: nat, messageSizeMax: nat): (r: Option<Failure>)
    ensures r == Some(MemoryLimit) <==> size > messageSizeMax
    ensures r == Some(DatagramLimit) <==> size <= messageSizeMax && size > Ceiling(t.sndSize)
    ensures r == None <==> size <= messageSizeMax && size <= 65507 && size + 28 <= t.sndSize
  {
    FitsCeiling(t.sndSize, size);
    if size > messageSizeMax then Some(MemoryLimit)
    else if ExceedsCeiling(t.sndSize, size) then Some(DatagramLimit)
    else None
  }

  /** checkSendSize and write apply the same ceiling: for a buffer within the message size
      limit, checkSendSize accepts it exactly when write gets as far as issuing a send. */
  lemma CheckSendSizeAgreesWithWrite(t: Transceiver, buf: seq<bv8>, messageSizeMax: nat, timeout: int, sends: seq<SendReply>, waits: seq<WaitReply>)
    requires t.handle.Open?
    requires |buf| <= messageSizeMax
    ensures CheckSendSize(t, |buf|, messageSizeMax).None? <==> |Write(t, buf, timeout, sends, waits).trace| > 0
  {
  }
}
